=== FILE: README.md ===
# Brick breaker on a light tree — a Dafny model

`animation.py` plays brick breaker on the lights of a Christmas tree, viewed
as a 2-D game plane (y left to right, z bottom to top). The lights in the
upper 60% of the tree are cut, in catalog order, into bricks of
`lights_per_brick` lights each. An AI paddle on a light row near the bottom
tracks the ball. The ball bounces off the side walls, the top wall, the
paddle (with spin from the hit offset) and the bricks (one brick per hit,
then a 5-frame cooldown). Every third fallen ball loses the round; clearing
every brick wins it. A lost round shows a 120-frame wash, a won round a
90-frame celebration, and then a new game starts on the next of six
viewing faces.

This project models that game logic over exact reals:

- `common.dfy` (`Common`): `Option` and `Result`.
- `realmath.dfy` (`RealMath`): the numpy helpers the game uses (abs, clip, min, max, mean) with their order facts.
- `bricks.dfy` (`Bricks`): the band selection, the partition into bricks with their collision boxes, the hit scan, and the active-flag bookkeeping.
- `game.dfy` (`Game`): the construction, the row snapping, the paddle AI, the phases of the ball step, and both resets.
- `statemachine.dfy` (`StateMachine`): the per-frame driver, its invariant over all reachable states, and the timing of both end-of-round animations.
- `losswash.dfy` (`LossWash`): the brightness formula of the loss wash.

Notes on the code as written:

- The frame that ends an animation (the 120th loss frame or the 90th win frame) starts a new game. Because the new game is neither won nor lost, that same frame then runs one paddle move and one ball step. So after that frame every brick but at most one is active (`StateMachine.NewGameFrame`).
- The loss wash turns the tree dark from the top down. A light is white while it is below the front and dark once the front is 0.15 past it. The inline comments describe the opposite (lights above the front turn white). The model follows the code: see `LossWash.Brightness` and `LossWash.BrightnessByHeight`.
- Only wash frames 1 to 119 are ever shown (`StateMachine.WashFramesShown`). Frame 0 (all white) and frame 120 (all dark) are never rendered. On frame 1 the top light is already dimmed to 238 of 255 (`LossWash.WashFirstShownFrame`), and on frame 119 the bottom light is still lit at 16 (`LossWash.WashLastShownFrame`).
- In the per-frame driver the ball only moves in a round that is neither won nor lost. The fall branch that respawns the ball after a win or a loss (animation.py:332-333) is therefore only reached by `Game.HandleFall` on its own, never from `StateMachine.Tick`.
- With `lights_per_brick == 0` the construction fails with a division by zero. With a negative value Python's `range` is empty, so there are no bricks. An empty catalog fails at `z.min()`. `Game.Init` returns these failures as `Err`.
- A round is never both won and lost, even when the board has no bricks at all (`StateMachine.RunKeepsInv`). A brick's widened box always lies above the fall line, so the ball cannot clear the last brick and fall in the same frame.

## Model

| member | source | states |
|---|---|---|
| RealMath.Clip | animation.py:255 | numpy clip: the result is at most the upper bound and at least the lower bound when the interval is non-empty; a value inside the interval is unchanged, and one outside is mapped to the bound it crossed; an empty interval (lower above upper) yields the upper bound |
| RealMath.SeqMin | animation.py:106 | the minimum of a non-empty array is one of its elements and bounds every element from below |
| RealMath.SeqMax | animation.py:106 | the maximum of a non-empty array is one of its elements and bounds every element from above |
| RealMath.Mean | animation.py:162-165 | the mean of a non-empty array lies between its minimum and its maximum |
| Bricks.UpperIndices | animation.py:141 | the band is exactly the lights at or above the threshold, each once, in ascending catalog order |
| Bricks.MakeBrick | animation.py:150-166 | a new brick is active and holds exactly the given lights (its box is stated by `Bricks.MakeBrickBox`) |
| Bricks.MakeBrickBox | animation.py:151-164 | a brick's box is tight: every member lies inside it, each bound is attained by a member, and each centre lies within its bounds |
| Bricks.Groups | animation.py:143-148 | the band is cut into consecutive groups of k, leaving a remainder shorter than k |
| Bricks.Partition | animation.py:142-164 | one brick per group, each active and holding k lights, with its box built from that group |
| Bricks.PartitionBricks | animation.py:145-158 | every brick starts active and holds exactly k band lights |
| Bricks.PartitionCount | animation.py:143 | there are exactly \|upper\| / k bricks (integer division), and the dropped tail is shorter than k |
| Bricks.PartitionSlices | animation.py:145-148 | brick i holds exactly the band slice upper[i*k .. i*k+k) |
| Bricks.OrderedPair | animation.py:145-148 | light a of brick i comes before light b of any later brick j in the catalog |
| Bricks.PartitionOrdered | animation.py:145-148 | every light of an earlier brick comes before every light of a later brick in the catalog |
| Bricks.PartitionDisjoint | animation.py:145-148 | no light belongs to two bricks |
| Bricks.PartitionFlatten | animation.py:143-148 | the bricks read back in order are exactly the first (\|upper\| / k) * k band lights |
| Bricks.PartitionAboveFloor | animation.py:139-153 | no brick's lower bound lies below the band threshold when all band lights are at or above it |
| Bricks.HitsOwnLights | animation.py:304-314 | the per-brick hit test (active, ball inside the box widened by 0.03 vertically and 0.05 sideways) accepts every light of a freshly built brick and its centre |
| Bricks.HitsNeedActive | animation.py:304-305 | a switched-off brick fails the hit test wherever the ball is |
| Bricks.FirstHit | animation.py:303-320 | the scan returns the lowest-index active brick whose widened box holds the ball, and returns it whenever such a brick exists, or reports that no brick does |
| Bricks.CountActive | animation.py:337 | the active count is positive exactly when some brick is active, and equals the brick count exactly when all are active |
| Bricks.Deactivate | animation.py:316 | the hit brick is switched off, the layout is kept, and every other brick is unchanged |
| Bricks.DeactivateCount | animation.py:316 | switching off an active brick lowers the active count by exactly one |
| Bricks.Reactivate | animation.py:349-351 | every brick is active again and its lights and box are unchanged |
| Game.SnapToRow | animation.py:222-238 | the target itself when there are no rows; otherwise the row closest to the target, the first such row on a tie |
| Game.AboveFallLineAll | animation.py:322-323 | the brick-by-brick statement that every widened brick box lies above the fall line is equivalent to the statement about every brick |
| Game.InitialBricks | animation.py:145-147 | none for a negative brick size (an empty range); otherwise \|band\| / k bricks, each active with k lights |
| Game.Init | animation.py:76-187 | construction fails exactly on an empty catalog or a zero brick size. Otherwise the world is the one `Game.InitWorld` fixes and the first state the one `Game.InitState` fixes; the bricks are the partition of the band into groups of k, or none when k < 0 |
| Game.InitWorld | animation.py:106-122 | the height range is exactly the lowest and highest light of the catalog, so it bounds every light; the paddle sits on the row nearest the lowest light plus 0.12, which is one of the rows when there are any |
| Game.InitState | animation.py:99-187 | the first round is in play with nothing counted: no falls, no wins, no animation frames, no cooldown, no last hit, game 0, angle 0; the paddle is centred; the ball is at the centre, 0.15 above the paddle, moving up at the ball speed and sideways at 0.7 of it; the bricks are the partition of the band at 40% of the height range, all active, inside the band and clear of the fall line |
| Game.TrackBall | animation.py:248-251 | the paddle steps by exactly +speed, -speed or 0, and holds still while the ball is within 0.02 |
| Game.TrackBallApproaches | animation.py:248-251 | at a speed of at most 0.04, a tracking step never takes the paddle farther from the ball |
| Game.MovePaddle | animation.py:240-255 | only the paddle moves; it ends within [left + w/2, right - w/2] when the paddle fits between the walls, and at right - w/2 when it does not; an in-range step is kept, a step below the range lands on its lower bound and a step above it on its upper bound |
| Game.Advance | animation.py:270-271 | the ball moves by exactly its velocity, which it keeps |
| Game.AdvanceUndo | animation.py:270-271 | a move is undone by a second move with the velocity reversed |
| Game.BounceWalls | animation.py:270-282 | the ball ends between the side walls and at or below the top wall; the sideways speed flips exactly when the moved ball is at or beyond a side wall; at the top the ball is pinned to the wall and its vertical speed flips |
| Game.PaddleContactShape | animation.py:287-289 | the paddle's contact zone is symmetric about the paddle's centre (a ball and its reflection through the centre are both in contact or both not) and under reflection of paddle and ball about the vertical axis; a ball level with the paddle at its centre is in contact with a paddle of positive width |
| Game.BouncePaddle | animation.py:284-295 | within the collision zone the ball heads up, and its sideways speed is the hit offset over the half-width times the ball speed, hence smaller in magnitude than the ball speed, and zero for a centre hit; outside the zone nothing changes |
| Game.HitBricks | animation.py:297-320 | during the cooldown the timer only counts down. Otherwise, when the ball lies in some active brick's widened box, the first such brick in index order is switched off, the vertical speed flips, the cooldown becomes 5 and the brick is recorded; with no such brick nothing changes |
| Game.HitBricksKeeps | animation.py:297-320 | the scan keeps the layout and every other field, never switches a brick back on, and leaves the cooldown counting down or at 0 or 5 |
| Game.HitBricksOnce | animation.py:303-320 | at most one brick is switched off per scan, only outside the cooldown and only the first hit brick; the active count drops by at most one |
| Game.ResetBall | animation.py:341-345 | the ball reappears 0.1 above the paddle, at the paddle's position, heading up, with its sideways speed unchanged, and out of the paddle's contact zone, so it is not bounced again at once |
| Game.HandleFall | animation.py:322-333 | a fall in play costs exactly one life, and the round is lost exactly when the count reaches a multiple of 3 (otherwise the ball respawns); after a win or a loss a fall only respawns the ball, heading up |
| Game.CheckWin | animation.py:335-339 | the round is won exactly when it already was or no brick is active; a new win restarts the win counter |
| Game.MoveBall | animation.py:257-339 | one ball step switches off at most one brick and never switches one back on, keeps the layout, counts down or restarts the cooldown, costs at most one life, never clears won or lost, and wins a board with no active brick |
| Game.MoveBallNotWonAndLost | animation.py:299-339 | with every widened brick box above the fall line, a ball step from a round in play that still has a brick never ends both won and lost |
| Game.ResetGame | animation.py:347-366 | all bricks active with the layout untouched; flags, animation counters, lives, cooldown and last hit cleared; the game count is one higher; the view turns to face game_count mod 6, at an angle in [0, 2π) |
| Game.FaceAngleBounds | animation.py:365 | each of the six face angles lies in [0, 2π) |
| Game.PlayStep | animation.py:409-410 | a play step keeps the game and frame counts and the view angle, and never clears won or lost |
| StateMachine.Clock | animation.py:370-377 | a frame adds one to the frame counter and changes nothing else but the angle, which becomes the wrapped sum of the old angle and the rotation speed; it stays in [0, 2π] when the speed is at most 2π |
| StateMachine.WrapAngle | animation.py:372-377 | the view angle moves by the rotation speed, up to one turn of 2π: a step that stays in [0, 2π] is kept exactly (2π itself is not wrapped, as the test is a strict >), and the angle stays in [0, 2π] when it started there and the speed is at most 2π |
| StateMachine.Tick | animation.py:368-410 | the loss check comes first: a lost round only counts and shows a wash frame until its 120th frame; a won round does the same until its 90th celebration frame; the last animation frame is exactly the new-game frame of the clocked state; a round in play is exactly one play step (paddle, then ball) on the clocked state and shows the board; every frame switches off at most one brick; the layout never changes |
| StateMachine.WashFramesShown | animation.py:379-390 | a wash frame is shown exactly while a lost round has not reached its 120th frame, and its frame number is between 1 and 119 |
| StateMachine.NewGameFrame | animation.py:383-386 | the frame that starts a new game counts one more game, turns the view to that game's face, is not lost, has lost at most one ball, has at most one brick off, and is not won when there are two bricks or more |
| StateMachine.NewGameBricks | animation.py:383-386 | resetting the game and then playing one step keeps the layout, leaves at most one brick off, and does not win a board of two bricks or more |
| StateMachine.OneOffAfterReset | animation.py:409-410 | one step of play from a board whose bricks are all active leaves at most one brick off |
| StateMachine.PlayFacts | animation.py:406-410 | a paddle move and a ball step keep the layout and the game and frame counts, switch off at most one brick and none back on, and do not win a board that still has two active bricks |
| StateMachine.PlayLives | animation.py:409-410 | a paddle move and a ball step cost at most one life, keep a lost round lost, and do not lose a round with two lives or more left |
| StateMachine.InitInv | animation.py:176-187 | a freshly built game satisfies the frame invariant |
| StateMachine.PlayKeepsInv | animation.py:409-410 | a play step from a round in play keeps the frame invariant |
| StateMachine.MoveBallKeepsInv | animation.py:257-339 | a ball step from a round in play keeps the frame invariant |
| StateMachine.ResetKeepsInv | animation.py:347-366 | a new game satisfies the frame invariant |
| StateMachine.NewGameKeepsInv | animation.py:383-399 | the frame that starts a new game ends in a state satisfying the frame invariant |
| StateMachine.TickKeepsInv | animation.py:368-410 | every frame keeps the invariant: the round is never both won and lost, the lives count stays at most 3 and reads 3 exactly in a lost round, the animation counters stay below their lengths, the cooldown and last hit stay in range, and the angle stays in [0, 2π] |
| StateMachine.RunKeepsInv | animation.py:368-410 | every state reached by any number of frames from an invariant state satisfies the invariant, and so is never both won and lost |
| StateMachine.ReachableInv | animation.py:368-410 | every state reachable from a freshly built game satisfies the invariant |
| StateMachine.LossPhase | animation.py:379-390 | for n below 120, the n-th frame after a loss leaves the round lost with the counter n higher, and the bricks, ball, lives and game count unchanged |
| StateMachine.LossLasts | animation.py:379-386 | a round lost in the current frame is still lost after 119 frames and starts a new game at exactly the 120th, turned to that game's face |
| StateMachine.WinPhase | animation.py:392-403 | for n below 90, the n-th frame after a win leaves the round won with the counter n higher, and the bricks, ball and game count unchanged |
| StateMachine.WinLasts | animation.py:392-399 | a round won in the current frame is still won after 89 frames and starts a new game at exactly the 90th, turned to that game's face |
| LossWash.FromTop | animation.py:507-511 | a light's depth below the top is within [0, 1], 0 at the top light and 1 at the bottom one |
| LossWash.Front | animation.py:504-516 | the wash front starts at depth 0 and has passed 1.15 by frame 120 |
| LossWash.Brightness | animation.py:520-523 | brightness is always within [0, 1]: full at or below the front, dark once the front is 0.15 past the light, and strictly between in the band |
| LossWash.BrightnessFalls | animation.py:504-523 | as the loss frames pass, no light gets brighter |
| LossWash.BrightnessByHeight | animation.py:507-523 | in every frame a higher light is no brighter than a lower one |
| LossWash.Channel | animation.py:527-528 | a light's channel is the truncated 8-bit value of 255 times its brightness |
| LossWash.WashFrame | animation.py:500-528 | one channel value in [0, 255] per light, taken from that light's brightness |
| LossWash.WashByFront | animation.py:500-528 | in every frame a light at or below the front is fully white (255) and a light 0.15 or more above it is dark (0) |
| LossWash.WashFirstShownFrame | animation.py:500-528 | on frame 1, the first one shown, the top light is already dimmed to 238 |
| LossWash.WashLastShownFrame | animation.py:500-528 | on frame 119, the last one shown, the bottom light is still lit at 16 |
| LossWash.WashStartsWhite | animation.py:500-528 | the formula at frame 0, which is never shown, gives every light of the catalog fully white |
| LossWash.WashEndsDark | animation.py:500-528 | the formula from frame 120 on, which is never shown, gives every light of the catalog dark |

## Left out

- View projection `_get_visible_face_coordinates` (animation.py:195-220): it uses arctan2 and sin over floats. The rotation angle is kept as a real, and 2π is an abstract constant (`Config.twoPi`); nothing constrains it, and the lemmas that need it positive require so.
- Setup numerics (animation.py:83-111): centering, polar angles, rounding to rows and row spacing. The centred game-plane coordinates and the distinct rows are inputs to `Game.Init`.
- The win celebration (animation.py:441-498): sqrt, arctan2, sin, the float hue arithmetic and the external HSV conversion. It is represented only by the `Celebration` frame tag.
- The board compositor (animation.py:412-439): colours, the paddle and ball drawn from projected distances, and the frame buffer. It is represented only by the `Board` frame tag, so the red/green colour of brick i (palette entry i mod 2) is not modelled.
- The unused fields `paddle_height`, `paddle_direction` and `game_over`, the base class, fps timing and the `print` calls.
- Floating-point rounding: all arithmetic is exact.
- LossWash.FromTop: requires a catalog with more than one height. With equal heights the code divides 0 by 0 and yields NaN brightness, which is not modelled.
- LossWash.FromTopMono: requires zMin < zMax, inherited from `LossWash.FromTop`; the equal-heights NaN frame is not modelled.
- LossWash.BrightnessByHeight: requires zMin < zMax, inherited from `LossWash.FromTop`; the equal-heights NaN frame is not modelled.
- LossWash.WashFrame: requires zMin < zMax, inherited from `LossWash.FromTop`; the equal-heights NaN frame is not modelled.
- LossWash.WashByFront: requires zMin < zMax, inherited from `LossWash.FromTop`; the equal-heights NaN frame is not modelled.
- LossWash.WashFirstShownFrame: requires zMin < zMax, inherited from `LossWash.FromTop`; the equal-heights NaN frame is not modelled.
- LossWash.WashLastShownFrame: requires zMin < zMax, inherited from `LossWash.FromTop`; the equal-heights NaN frame is not modelled.
- LossWash.WashStartsWhite: requires zMin < zMax, inherited from `LossWash.FromTop`; the equal-heights NaN frame is not modelled.
- LossWash.WashEndsDark: requires zMin < zMax, inherited from `LossWash.FromTop`; the equal-heights NaN frame is not modelled.
- StateMachine.WrapAngle: keeps the angle in [0, 2π] only when the rotation speed is at most 2π. The code wraps only once per frame.

=== FILE: bricks.dfy ===
/** The brick wall: which lights form the bricks, their collision boxes,
    and the active flags that the game toggles (animation.py:139-166, 297-320). */
module Bricks {
  import opened Common
  import opened RealMath

  /** One light of the catalog in the game plane, after centering:
      y runs left to right, z bottom to top. */
  datatype Point = Point(y: real, z: real)

  /** A group of consecutive band lights. Only `active` ever changes after
      construction; the box is the min/max/mean of the members' coordinates. */
  datatype Brick = Brick(
    indices: seq<nat>,
    active: bool,
    zMin: real, zMax: real, zCenter: real,
    yMin: real, yMax: real, yCenter: real)

  /** Fraction of the vertical extent below the brick band (upper 60% is the band). */
  const BandFloorFraction: real := 0.4
  /** Widening of a brick's box for the hit test, vertically and horizontally. */
  const ZTolerance: real := 0.03
  const YTolerance: real := 0.05

  predicate ValidIndices(points: seq<Point>, idx: seq<nat>)
  {
    forall i :: 0 <= i < |idx| ==> idx[i] < |points|
  }

  predicate StrictlyIncreasing(s: seq<nat>)
  {
    forall i, j :: 0 <= i < j < |s| ==> s[i] < s[j]
  }

  function UpperThreshold(zMin: real, zMax: real): real
  {
    zMin + (zMax - zMin) * BandFloorFraction
  }

  /** numpy.where(z >= threshold) restricted to the first n lights. */
  function BandPrefix(points: seq<Point>, threshold: real, n: nat): (r: seq<nat>)
    requires n <= |points|
    ensures forall i :: 0 <= i < |r| ==> r[i] < n && points[r[i]].z >= threshold
    ensures forall m :: 0 <= m < n && points[m].z >= threshold ==> m in r
    ensures StrictlyIncreasing(r)
  {
    if n == 0 then []
    else
      var prev := BandPrefix(points, threshold, n - 1);
      if points[n - 1].z >= threshold then prev + [n - 1] else prev
  }

  /** The indices of the lights at or above the threshold, in catalog order:
      exactly those lights, each once, ascending. */
  function UpperIndices(points: seq<Point>, threshold: real): (r: seq<nat>)
    ensures ValidIndices(points, r)
    ensures forall i :: 0 <= i < |r| ==> points[r[i]].z >= threshold
    ensures forall m :: 0 <= m < |points| ==> (m in r <==> points[m].z >= threshold)
    ensures StrictlyIncreasing(r)
  {
    BandPrefix(points, threshold, |points|)
  }

  function ZValues(points: seq<Point>, idx: seq<nat>): (r: seq<real>)
    requires ValidIndices(points, idx)
    ensures |r| == |idx|
  {
    seq(|idx|, i requires 0 <= i < |idx| => points[idx[i]].z)
  }

  function YValues(points: seq<Point>, idx: seq<nat>): (r: seq<real>)
    requires ValidIndices(points, idx)
    ensures |r| == |idx|
  {
    seq(|idx|, i requires 0 <= i < |idx| => points[idx[i]].y)
  }

  /** One active brick over the given lights; its box is the min, max and
      mean of the members' coordinates. */
  function MakeBrick(points: seq<Point>, idx: seq<nat>): (b: Brick)
    requires |idx| > 0 && ValidIndices(points, idx)
    ensures b.indices == idx && b.active
  {
    var zs := ZValues(points, idx);
    var ys := YValues(points, idx);
    Brick(idx, true, SeqMin(zs), SeqMax(zs), Mean(zs), SeqMin(ys), SeqMax(ys), Mean(ys))
  }

  /** A new brick's box is tight: every member lies inside it, each bound is
      attained by a member, and the centre lies within the bounds. */
  lemma MakeBrickBox(points: seq<Point>, idx: seq<nat>)
    requires |idx| > 0 && ValidIndices(points, idx)
    ensures forall i :: 0 <= i < |idx| ==>
      MakeBrick(points, idx).zMin <= points[idx[i]].z <= MakeBrick(points, idx).zMax
    ensures forall i :: 0 <= i < |idx| ==>
      MakeBrick(points, idx).yMin <= points[idx[i]].y <= MakeBrick(points, idx).yMax
    ensures exists i :: 0 <= i < |idx| && MakeBrick(points, idx).zMin == points[idx[i]].z
    ensures exists i :: 0 <= i < |idx| && MakeBrick(points, idx).zMax == points[idx[i]].z
    ensures exists i :: 0 <= i < |idx| && MakeBrick(points, idx).yMin == points[idx[i]].y
    ensures exists i :: 0 <= i < |idx| && MakeBrick(points, idx).yMax == points[idx[i]].y
    ensures MakeBrick(points, idx).zMin <= MakeBrick(points, idx).zCenter <= MakeBrick(points, idx).zMax
    ensures MakeBrick(points, idx).yMin <= MakeBrick(points, idx).yCenter <= MakeBrick(points, idx).yMax
  {
    var zs := ZValues(points, idx);
    var ys := YValues(points, idx);
    assert forall i :: 0 <= i < |idx| ==> zs[i] == points[idx[i]].z && ys[i] == points[idx[i]].y;
    var a :| 0 <= a < |zs| && zs[a] == SeqMin(zs);
    var b :| 0 <= b < |zs| && zs[b] == SeqMax(zs);
    var c :| 0 <= c < |ys| && ys[c] == SeqMin(ys);
    var d :| 0 <= d < |ys| && ys[d] == SeqMax(ys);
    assert MakeBrick(points, idx).zMin == points[idx[a]].z;
    assert MakeBrick(points, idx).zMax == points[idx[b]].z;
    assert MakeBrick(points, idx).yMin == points[idx[c]].y;
    assert MakeBrick(points, idx).yMax == points[idx[d]].y;
  }

  /** The scan's test accepts every light of a freshly built brick and its
      centre: the widened box contains the whole brick. */
  lemma HitsOwnLights(points: seq<Point>, idx: seq<nat>, m: nat)
    requires |idx| > 0 && ValidIndices(points, idx) && m < |idx|
    ensures Hits(MakeBrick(points, idx), points[idx[m]].y, points[idx[m]].z)
    ensures Hits(MakeBrick(points, idx), MakeBrick(points, idx).yCenter, MakeBrick(points, idx).zCenter)
  {
    MakeBrickBox(points, idx);
  }

  /** A switched-off brick is never hit, wherever the ball is. */
  lemma HitsNeedActive(b: Brick, y: real, z: real)
    ensures !Hits(b.(active := false), y, z)
  {
  }

  lemma MulMono(a: nat, b: nat, k: nat)
    requires a <= b
    ensures a * k <= b * k
  {
  }

  lemma Distrib(m: nat, k: nat)
    ensures (m + 1) * k == m * k + k
  {
  }

  /** Euclidean division is the unique quotient q with q*k <= n < q*k + k. */
  lemma DivUnique(n: nat, k: nat, q: nat)
    requires k > 0
    requires q * k <= n < q * k + k
    ensures n / k == q
  {
    var q', m := n / k, n % k;
    assert n == q' * k + m;
    if q' > q {
      MulMono(q + 1, q', k);
      Distrib(q, k);
    } else if q' < q {
      MulMono(q' + 1, q, k);
      Distrib(q', k);
    }
  }

  /** Where group i begins when groups of k are laid end to end: i * k,
      spelled as repeated addition so that the solver reasons linearly. */
  function Start(i: nat, k: nat): nat
  {
    if i == 0 then 0 else Start(i - 1, k) + k
  }

  lemma {:induction false} StartIsProduct(i: nat, k: nat)
    ensures Start(i, k) == i * k
  {
    if i > 0 {
      StartIsProduct(i - 1, k);
      Distrib(i - 1, k);
    }
  }

  /** A later group begins no earlier than the end of an earlier one. */
  lemma {:induction false} StartMono(i: nat, j: nat, k: nat)
    requires i < j
    ensures Start(i, k) + k <= Start(j, k)
  {
    if i + 1 < j {
      StartMono(i, j - 1, k);
    }
  }

  lemma StartMonoLe(i: nat, j: nat, k: nat)
    requires i <= j
    ensures Start(i, k) <= Start(j, k)
  {
    if i < j {
      StartMono(i, j, k);
    }
  }

  lemma GroupsBelow(n: nat, k: nat, len: nat)
    requires Start(n, k) <= len
    ensures forall j :: 0 <= j <= n ==> Start(j, k) <= len
  {
    forall j | 0 <= j <= n
      ensures Start(j, k) <= len
    {
      StartMonoLe(j, n, k);
    }
  }

  /** All |upper| / k whole groups fit inside upper. */
  lemma GroupsFit(len: nat, k: nat)
    requires k > 0
    ensures Start(len / k, k) <= len < Start(len / k, k) + k
  {
    StartIsProduct(len / k, k);
    assert len == len / k * k + len % k;
  }

  /** The band indices cut, in order, into |upper| / k consecutive groups of
      k, the incomplete tail dropped: group i is upper[Start(i) .. Start(i + 1)). */
  function Groups(upper: seq<nat>, k: nat): (gs: seq<seq<nat>>)
    requires k > 0
    ensures Start(|gs|, k) <= |upper| < Start(|gs|, k) + k
    ensures forall j :: 0 <= j <= |gs| ==> Start(j, k) <= |upper|
    ensures forall i :: 0 <= i < |gs| ==> gs[i] == upper[Start(i, k) .. Start(i + 1, k)]
  {
    var n := |upper| / k;
    GroupsFit(|upper|, k);
    GroupsBelow(n, k, |upper|);
    seq(n, i requires 0 <= i < n => upper[Start(i, k) .. Start(i + 1, k)])
  }

  /** Member a of group i is band index Start(i) + a. */
  lemma GroupAt(upper: seq<nat>, k: nat, i: nat, a: nat)
    requires k > 0 && i < |Groups(upper, k)| && a < k
    ensures Start(i, k) + a < |upper|
    ensures |Groups(upper, k)[i]| == k
    ensures Groups(upper, k)[i][a] == upper[Start(i, k) + a]
  {
    GroupSlice(upper, k, i);
    SliceAt(upper, Start(i, k), Start(i, k) + k, a);
  }

  /** Group i is the band slice of length k starting at Start(i). */
  lemma GroupSlice(upper: seq<nat>, k: nat, i: nat)
    requires k > 0 && i < |Groups(upper, k)|
    ensures Start(i, k) + k <= |upper|
    ensures Groups(upper, k)[i] == upper[Start(i, k) .. Start(i, k) + k]
  {
    var s, t := Start(i, k), Start(i + 1, k);
    assert t == s + k;
    assert t <= |upper|;
  }

  lemma SliceAt(u: seq<nat>, s: nat, t: nat, a: nat)
    requires s <= t <= |u| && a < t - s
    ensures |u[s .. t]| == t - s
    ensures u[s .. t][a] == u[s + a]
  {
  }

  /** Every group draws its members from the band. */
  lemma GroupsInBand(points: seq<Point>, upper: seq<nat>, k: nat)
    requires k > 0 && ValidIndices(points, upper)
    ensures forall i :: 0 <= i < |Groups(upper, k)| ==>
      |Groups(upper, k)[i]| == k && ValidIndices(points, Groups(upper, k)[i]) &&
      forall a :: 0 <= a < k ==> Groups(upper, k)[i][a] in upper
  {
    var gs := Groups(upper, k);
    forall i | 0 <= i < |gs|
      ensures |gs[i]| == k && ValidIndices(points, gs[i]) && forall a :: 0 <= a < k ==> gs[i][a] in upper
    {
      GroupSlice(upper, k, i);
      forall a | 0 <= a < k
        ensures gs[i][a] in upper && gs[i][a] < |points|
      {
        GroupAt(upper, k, i, a);
        var m := Start(i, k) + a;
        assert gs[i][a] == upper[m] && upper[m] < |points|;
      }
    }
  }

  /** The bricks of the band, one active brick over each group. */
  function Partition(points: seq<Point>, upper: seq<nat>, k: nat): (r: seq<Brick>)
    requires k > 0
    requires ValidIndices(points, upper)
    ensures |r| == |Groups(upper, k)|
    ensures forall i :: 0 <= i < |r| ==> r[i].active && |r[i].indices| == k
    ensures forall i :: 0 <= i < |r| ==>
      ValidIndices(points, Groups(upper, k)[i]) && r[i] == MakeBrick(points, Groups(upper, k)[i])
  {
    var gs := Groups(upper, k);
    GroupsInBand(points, upper, k);
    seq(|gs|, i requires 0 <= i < |gs| => MakeBrick(points, gs[i]))
  }

  /** Every brick of the partition is active, holds k band lights, and its box
      bounds each of its lights. */
  lemma PartitionBricks(points: seq<Point>, upper: seq<nat>, k: nat)
    requires k > 0 && ValidIndices(points, upper)
    ensures forall i :: 0 <= i < |Partition(points, upper, k)| ==>
      Partition(points, upper, k)[i].active && |Partition(points, upper, k)[i].indices| == k
    ensures forall i, a :: 0 <= i < |Partition(points, upper, k)| && 0 <= a < k ==>
      Partition(points, upper, k)[i].indices[a] in upper
  {
    GroupsInBand(points, upper, k);
  }

  /** The number of bricks is |upper| / k, the remainder being dropped. */
  lemma PartitionCount(points: seq<Point>, upper: seq<nat>, k: nat)
    requires k > 0 && ValidIndices(points, upper)
    ensures |Partition(points, upper, k)| == |upper| / k
    ensures |Partition(points, upper, k)| * k <= |upper| < |Partition(points, upper, k)| * k + k
  {
    var n := |Partition(points, upper, k)|;
    StartIsProduct(n, k);
    DivUnique(|upper|, k, n);
  }

  /** idx is the run of k band indices starting at position lo. */
  predicate IsSliceOf(idx: seq<nat>, upper: seq<nat>, lo: int, k: nat)
  {
    0 <= lo && lo + k <= |upper| && idx == upper[lo .. lo + k]
  }

  /** Brick i consists of exactly the band indices upper[i*k .. i*k+k). */
  lemma PartitionSlices(points: seq<Point>, upper: seq<nat>, k: nat)
    requires k > 0 && ValidIndices(points, upper)
    ensures forall i :: 0 <= i < |Partition(points, upper, k)| ==>
      IsSliceOf(Partition(points, upper, k)[i].indices, upper, i * k, k)
  {
    var r := Partition(points, upper, k);
    forall i | 0 <= i < |r|
      ensures IsSliceOf(r[i].indices, upper, i * k, k)
    {
      PartitionSliceAt(points, upper, k, i);
    }
  }

  lemma PartitionSliceAt(points: seq<Point>, upper: seq<nat>, k: nat, i: nat)
    requires k > 0 && ValidIndices(points, upper)
    requires i < |Partition(points, upper, k)|
    ensures IsSliceOf(Partition(points, upper, k)[i].indices, upper, i * k, k)
  {
    var s, t := Start(i, k), Start(i + 1, k);
    assert Partition(points, upper, k)[i].indices == upper[s .. t];
    GroupIsProductSlice(upper, k, i);
  }

  lemma GroupIsProductSlice(upper: seq<nat>, k: nat, i: nat)
    requires Start(i + 1, k) <= |upper|
    ensures IsSliceOf(upper[Start(i, k) .. Start(i + 1, k)], upper, i * k, k)
  {
    StartIsProduct(i, k);
  }

  /** Bricks follow index order: every light of brick i precedes every light of
      any later brick j. */
  lemma PartitionOrdered(points: seq<Point>, upper: seq<nat>, k: nat)
    requires k > 0 && ValidIndices(points, upper)
    requires StrictlyIncreasing(upper)
    ensures forall i, j, a, b ::
      0 <= i < j < |Partition(points, upper, k)| && 0 <= a < k && 0 <= b < k ==>
      Partition(points, upper, k)[i].indices[a] < Partition(points, upper, k)[j].indices[b]
  {
    var r := Partition(points, upper, k);
    forall i, j, a, b | 0 <= i < j < |r| && 0 <= a < k && 0 <= b < k
      ensures r[i].indices[a] < r[j].indices[b]
    {
      OrderedPair(points, upper, k, i, j, a, b);
    }
  }

  /** Light a of brick i precedes light b of a later brick j. */
  lemma OrderedPair(points: seq<Point>, upper: seq<nat>, k: nat, i: nat, j: nat, a: nat, b: nat)
    requires k > 0 && ValidIndices(points, upper)
    requires StrictlyIncreasing(upper)
    requires i < j < |Partition(points, upper, k)| && a < k && b < k
    ensures Partition(points, upper, k)[i].indices[a] < Partition(points, upper, k)[j].indices[b]
  {
    var r := Partition(points, upper, k);
    var gs := Groups(upper, k);
    StartMono(i, j, k);
    GroupAt(upper, k, i, a);
    GroupAt(upper, k, j, b);
    assert r[i].indices == gs[i] && r[j].indices == gs[j];
    var x, y := Start(i, k) + a, Start(j, k) + b;
    assert upper[x] < upper[y];
  }

  /** No light belongs to two bricks. */
  lemma PartitionDisjoint(points: seq<Point>, upper: seq<nat>, k: nat)
    requires k > 0 && ValidIndices(points, upper)
    requires StrictlyIncreasing(upper)
    ensures forall i, j, p ::
      (0 <= i < |Partition(points, upper, k)| && 0 <= j < |Partition(points, upper, k)| && i != j &&
       p in Partition(points, upper, k)[i].indices) ==>
      p !in Partition(points, upper, k)[j].indices
  {
    var r := Partition(points, upper, k);
    forall i, j, p | 0 <= i < |r| && 0 <= j < |r| && i != j && p in r[i].indices
      ensures p !in r[j].indices
    {
      var a :| 0 <= a < |r[i].indices| && r[i].indices[a] == p;
      NotInOtherBrick(points, upper, k, i, j, a);
    }
  }

  /** Light a of brick i is none of the lights of a different brick j. */
  lemma NotInOtherBrick(points: seq<Point>, upper: seq<nat>, k: nat, i: nat, j: nat, a: nat)
    requires k > 0 && ValidIndices(points, upper)
    requires StrictlyIncreasing(upper)
    requires i < |Partition(points, upper, k)| && j < |Partition(points, upper, k)| && i != j
    requires a < |Partition(points, upper, k)[i].indices|
    ensures Partition(points, upper, k)[i].indices[a] !in Partition(points, upper, k)[j].indices
  {
    var r := Partition(points, upper, k);
    forall b | 0 <= b < |r[j].indices|
      ensures r[j].indices[b] != r[i].indices[a]
    {
      if i < j {
        OrderedPair(points, upper, k, i, j, a, b);
      } else {
        OrderedPair(points, upper, k, j, i, b, a);
      }
    }
  }

  /** The lights of all bricks, brick after brick. */
  function Flatten(bricks: seq<Brick>): seq<nat>
  {
    if |bricks| == 0 then [] else Flatten(bricks[..|bricks| - 1]) + bricks[|bricks| - 1].indices
  }

  lemma SplitPrefix(u: seq<nat>, s: nat, t: nat)
    requires s <= t <= |u|
    ensures u[..s] + u[s .. t] == u[..t]
  {
  }

  lemma {:induction false} FlattenPrefix(points: seq<Point>, upper: seq<nat>, k: nat, m: nat)
    requires k > 0 && ValidIndices(points, upper)
    requires m <= |Partition(points, upper, k)|
    ensures Start(m, k) <= |upper|
    ensures Flatten(Partition(points, upper, k)[..m]) == upper[..Start(m, k)]
  {
    var r := Partition(points, upper, k);
    var gs := Groups(upper, k);
    if m > 0 {
      FlattenPrefix(points, upper, k, m - 1);
      FlattenSnoc(r, m);
      assert r[m - 1].indices == gs[m - 1];
      var s, t := Start(m - 1, k), Start(m, k);
      assert s <= t <= |upper|;
      SplitPrefix(upper, s, t);
    }
  }

  /** Flattening the first m bricks appends brick m - 1 to the first m - 1. */
  lemma FlattenSnoc(bricks: seq<Brick>, m: nat)
    requires 0 < m <= |bricks|
    ensures Flatten(bricks[..m]) == Flatten(bricks[..m - 1]) + bricks[m - 1].indices
  {
    assert bricks[..m][..m - 1] == bricks[..m - 1];
  }

  /** Read back brick after brick, the partition is exactly the band indices
      up to the dropped remainder: the first (|upper| / k) * k band lights,
      in order, and nothing else. */
  lemma PartitionFlatten(points: seq<Point>, upper: seq<nat>, k: nat)
    requires k > 0 && ValidIndices(points, upper)
    ensures |Partition(points, upper, k)| * k <= |upper|
    ensures Flatten(Partition(points, upper, k)) == upper[..|Partition(points, upper, k)| * k]
  {
    var r := Partition(points, upper, k);
    FlattenPrefix(points, upper, k, |r|);
    assert r[..|r|] == r;
    StartIsProduct(|r|, k);
  }

  /** When every band light sits at or above a height, so does every brick's
      lower bound: a brick's box never reaches below the band. */
  lemma PartitionAboveFloor(points: seq<Point>, upper: seq<nat>, k: nat, floor: real)
    requires k > 0 && ValidIndices(points, upper)
    requires forall i :: 0 <= i < |upper| ==> points[upper[i]].z >= floor
    ensures forall i :: 0 <= i < |Partition(points, upper, k)| ==> Partition(points, upper, k)[i].zMin >= floor
  {
    var r := Partition(points, upper, k);
    var gs := Groups(upper, k);
    GroupsInBand(points, upper, k);
    forall i | 0 <= i < |r|
      ensures r[i].zMin >= floor
    {
      MakeBrickBox(points, gs[i]);
      var m :| 0 <= m < |gs[i]| && r[i].zMin == points[gs[i][m]].z;
      assert gs[i][m] in upper;
    }
  }

  /** The hit test of the brick scan: the brick is still in play and the ball
      lies in its box widened by the tolerances (bounds inclusive). */
  predicate Hits(b: Brick, y: real, z: real)
  {
    && b.active
    && z >= b.zMin - ZTolerance
    && z <= b.zMax + ZTolerance
    && y >= b.yMin - YTolerance
    && y <= b.yMax + YTolerance
  }

  /** Scans bricks from index `from` upward and stops at the first hit. */
  function FirstHitFrom(bricks: seq<Brick>, y: real, z: real, from: nat): (r: Option<nat>)
    requires from <= |bricks|
    ensures r.Some? ==>
      && from <= r.value < |bricks|
      && Hits(bricks[r.value], y, z)
      && forall j :: from <= j < r.value ==> !Hits(bricks[j], y, z)
    ensures r.None? ==> forall j :: from <= j < |bricks| ==> !Hits(bricks[j], y, z)
    decreases |bricks| - from
  {
    if from == |bricks| then None
    else if Hits(bricks[from], y, z) then Some(from)
    else FirstHitFrom(bricks, y, z, from + 1)
  }

  /** Brick i is the first brick, in index order, whose test the ball passes. */
  predicate FirstHitAt(bricks: seq<Brick>, y: real, z: real, i: int)
  {
    && 0 <= i < |bricks|
    && Hits(bricks[i], y, z)
    && forall j :: 0 <= j < i ==> !Hits(bricks[j], y, z)
  }

  /** The lowest-index active brick whose widened box holds the ball, if any. */
  function FirstHit(bricks: seq<Brick>, y: real, z: real): (r: Option<nat>)
    ensures r.Some? ==> FirstHitAt(bricks, y, z, r.value)
    ensures forall i :: FirstHitAt(bricks, y, z, i) ==> r == Some(i)
    ensures r.None? ==> forall j :: 0 <= j < |bricks| ==> !Hits(bricks[j], y, z)
  {
    FirstHitFrom(bricks, y, z, 0)
  }

  function Deactivate(bricks: seq<Brick>, i: nat): (r: seq<Brick>)
    requires i < |bricks|
    ensures SameLayout(bricks, r)
    ensures !r[i].active
    ensures forall j :: 0 <= j < |r| && j != i ==> r[j] == bricks[j]
  {
    bricks[i := bricks[i].(active := false)]
  }

  predicate AnyActive(bricks: seq<Brick>)
  {
    exists i :: 0 <= i < |bricks| && bricks[i].active
  }

  /** The number of bricks still in play; positive exactly when one is. */
  function CountActive(bricks: seq<Brick>): (n: nat)
    ensures n <= |bricks|
    ensures n > 0 <==> AnyActive(bricks)
    ensures n == |bricks| <==> forall i :: 0 <= i < |bricks| ==> bricks[i].active
  {
    if |bricks| == 0 then 0
    else
      var rest := CountActive(bricks[1..]);
      assert forall i :: 1 <= i < |bricks| ==> bricks[1..][i - 1] == bricks[i];
      (if bricks[0].active then 1 else 0) + rest
  }

  /** Switching off an active brick lowers the active count by exactly one. */
  lemma {:induction false} DeactivateCount(bricks: seq<Brick>, i: nat)
    requires i < |bricks| && bricks[i].active
    ensures CountActive(Deactivate(bricks, i)) == CountActive(bricks) - 1
  {
    var d := Deactivate(bricks, i);
    CountActiveCons(d);
    CountActiveCons(bricks);
    if i == 0 {
      assert d[1..] == bricks[1..];
    } else {
      DeactivateTail(bricks, i);
      DeactivateCount(bricks[1..], i - 1);
    }
  }

  /** The count splits into the first brick and the rest. */
  lemma CountActiveCons(bricks: seq<Brick>)
    requires |bricks| > 0
    ensures CountActive(bricks) == (if bricks[0].active then 1 else 0) + CountActive(bricks[1..])
  {
  }

  /** Switching off brick i > 0 leaves the first brick alone and switches
      off brick i - 1 of the rest. */
  lemma DeactivateTail(bricks: seq<Brick>, i: nat)
    requires 0 < i < |bricks|
    ensures Deactivate(bricks, i)[0] == bricks[0]
    ensures Deactivate(bricks, i)[1..] == Deactivate(bricks[1..], i - 1)
  {
    var d, e := Deactivate(bricks, i), Deactivate(bricks[1..], i - 1);
    assert |d[1..]| == |e|;
    forall j | 0 <= j < |e|
      ensures d[1..][j] == e[j]
    {
    }
  }

  /** Brick b2 is brick b1 with possibly a different active flag. */
  predicate SameBox(b1: Brick, b2: Brick)
  {
    b1.(active := b2.active) == b2
  }

  /** The two walls have the same bricks, up to their active flags. */
  predicate SameLayout(before: seq<Brick>, after: seq<Brick>)
  {
    |before| == |after| && forall i :: 0 <= i < |before| ==> SameBox(before[i], after[i])
  }

  /** Brick i went from in play to out of play. */
  predicate Deactivated(before: seq<Brick>, after: seq<Brick>, i: int)
  {
    0 <= i < |before| && i < |after| && before[i].active && !after[i].active
  }

  /** Every brick back in play, geometry untouched. */
  function Reactivate(bricks: seq<Brick>): (r: seq<Brick>)
    ensures SameLayout(bricks, r)
    ensures CountActive(r) == |r|
  {
    seq(|bricks|, i requires 0 <= i < |bricks| => bricks[i].(active := true))
  }
}

=== FILE: common.dfy ===
/** Failure-carrying wrappers shared by the model. */
module Common {

  /** A value that may be absent, such as "no brick was hit". */
  datatype Option<+T> = None | Some(value: T)

  /** The outcome of a step that can fail, such as constructing the game. */
  datatype Result<+T, +E> = Ok(value: T) | Err(error: E)
}

=== FILE: game.dfy ===
/** One round of brick breaker in the game plane: construction, the paddle
    AI, the ball step with its collisions, and the two resets
    (animation.py:55-366). Positions and velocities are exact reals. */
module Game {
  import opened Common
  import opened RealMath
  import opened Bricks

  /** The construction knobs (animation.py:55-61). `twoPi` stands for 2π,
      which enters through the viewing-face angle and the wrap of the view
      angle; nothing here constrains it, and the lemmas that need it
      positive say so. */
  datatype Config = Config(
    ballSpeed: real,
    paddleSpeed: real,
    paddleWidth: real,
    lightsPerBrick: int,
    rotationSpeed: real,
    twoPi: real)

  /** Geometry fixed at construction: the vertical extent of the catalog and
      the paddle's row. */
  datatype World = World(cfg: Config, zMin: real, zMax: real, paddleZ: real)

  datatype Ball = Ball(y: real, z: real, vy: real, vz: real)

  /** Everything the game mutates between ticks. */
  datatype GameState = GameState(
    paddleY: real,
    ball: Ball,
    bricks: seq<Brick>,
    won: bool,
    lost: bool,
    winFrames: nat,
    lossFrames: nat,
    fallCount: nat,
    lastBrickHit: int,
    cooldown: nat,
    gameCount: nat,
    rotationAngle: real,
    frameCount: nat)

  /** Construction failures: numpy's min over an empty catalog, and the
      integer division by a zero brick size. */
  datatype InitError = EmptyCatalog | ZeroBrickSize

  const LeftWall: real := -0.35
  const RightWall: real := 0.35
  /** The top wall sits this far below the highest light, the bottom this far above the lowest. */
  const WallInset: real := 0.05
  /** The ball is lost once it is this far below the bottom. */
  const FallMargin: real := 0.1
  /** The paddle's target height above the lowest light, before snapping to a row. */
  const PaddleRowOffset: real := 0.12
  /** The paddle holds still while the ball is within this horizontal distance. */
  const DeadBand: real := 0.02
  const CollisionHeight: real := 0.04
  const BallRadius: real := 0.05
  /** A respawned ball appears this far above the paddle. */
  const RespawnHeight: real := 0.1
  /** The first ball appears this far above the paddle, moving at 0.7 of the speed sideways. */
  const StartHeight: real := 0.15
  const StartSpin: real := 0.7
  const HitCooldown: nat := 5
  /** A game is lost on every third fall. */
  const Lives: nat := 3
  const FacesPerCycle: nat := 6

  function TopWall(w: World): real { w.zMax - WallInset }
  function Bottom(w: World): real { w.zMin + WallInset }
  function FallLine(w: World): real { Bottom(w) - FallMargin }

  /** Every brick's widened box lies above the line below which the ball
      counts as fallen (stated brick by brick from the front). */
  predicate BricksAboveFallLine(w: World, bricks: seq<Brick>)
    decreases |bricks|
  {
    |bricks| == 0 ||
    (bricks[0].zMin - ZTolerance >= FallLine(w) && BricksAboveFallLine(w, bricks[1..]))
  }

  /** The brick-by-brick statement is the statement about every brick. */
  lemma {:induction false} AboveFallLineAll(w: World, bricks: seq<Brick>)
    ensures BricksAboveFallLine(w, bricks) <==>
      forall i :: 0 <= i < |bricks| ==> bricks[i].zMin - ZTolerance >= FallLine(w)
    decreases |bricks|
  {
    if |bricks| > 0 {
      AboveFallLineAll(w, bricks[1..]);
      assert forall i :: 1 <= i < |bricks| ==> bricks[1..][i - 1] == bricks[i];
    }
  }

  // ---------------------------------------------------------------------------
  // Row snapping (animation.py:222-238)

  /** numpy.argmin of |rows[j] - target| over rows[..n]: the first index of
      smallest distance. */
  function ArgMinPrefix(rows: seq<real>, target: real, n: nat): (i: nat)
    requires 0 < n <= |rows|
    ensures i < n
    ensures forall j :: 0 <= j < n ==> Abs(rows[i] - target) <= Abs(rows[j] - target)
    ensures forall j :: 0 <= j < i ==> Abs(rows[j] - target) > Abs(rows[i] - target)
  {
    if n == 1 then 0
    else
      var best := ArgMinPrefix(rows, target, n - 1);
      if Abs(rows[n - 1] - target) < Abs(rows[best] - target) then n - 1 else best
  }

  /** The row closest to the target, the earliest one on a tie; the target
      itself when there are no rows. */
  function SnapToRow(rows: seq<real>, target: real): (r: real)
    ensures |rows| == 0 ==> r == target
    ensures |rows| > 0 ==> r in rows
    ensures forall j :: 0 <= j < |rows| ==> Abs(r - target) <= Abs(rows[j] - target)
    ensures |rows| > 0 ==>
      exists i :: 0 <= i < |rows| && rows[i] == r && (forall j :: 0 <= j < i ==> Abs(rows[j] - target) > Abs(r - target))
  {
    if |rows| == 0 then target else rows[ArgMinPrefix(rows, target, |rows|)]
  }

  // ---------------------------------------------------------------------------
  // Construction (animation.py:85-187)

  function CatalogZ(points: seq<Point>): (zs: seq<real>)
    ensures |zs| == |points|
    ensures forall i :: 0 <= i < |points| ==> zs[i] == points[i].z
  {
    seq(|points|, i requires 0 <= i < |points| => points[i].z)
  }

  /** The initial bricks: the band split into groups of k; none for a
      negative k, whose Python range is empty. */
  function InitialBricks(points: seq<Point>, threshold: real, k: int): (r: seq<Brick>)
    requires k != 0
    ensures k < 0 ==> r == []
    ensures k > 0 ==> |r| == |UpperIndices(points, threshold)| / k
    ensures forall i :: 0 <= i < |r| ==> r[i].active && |r[i].indices| == k
  {
    if k < 0 then []
    else
      PartitionCount(points, UpperIndices(points, threshold), k);
      Partition(points, UpperIndices(points, threshold), k)
  }

  /** The world of a non-empty catalog: the height range is the catalog's
      own minimum and maximum height, and the paddle sits on the light row
      nearest to 0.12 above the bottom. */
  function InitWorld(cfg: Config, points: seq<Point>, rows: seq<real>): (w: World)
    requires |points| > 0
    ensures w.cfg == cfg
    ensures w.zMin == SeqMin(CatalogZ(points)) && w.zMax == SeqMax(CatalogZ(points))
    ensures w.paddleZ == SnapToRow(rows, w.zMin + PaddleRowOffset)
    ensures w.zMin <= w.zMax
    ensures forall i :: 0 <= i < |points| ==> w.zMin <= points[i].z <= w.zMax
    ensures |rows| > 0 ==> w.paddleZ in rows
  {
    var zs := CatalogZ(points);
    World(cfg, SeqMin(zs), SeqMax(zs), SnapToRow(rows, SeqMin(zs) + PaddleRowOffset))
  }

  /** Builds the game over the catalog's (centered) points and its distinct
      light rows: fails exactly on an empty catalog or a zero brick size;
      otherwise the bricks are the partition of the upper band (none for a
      negative size), every brick is active, lies in the upper band, and
      clears the fall line, and the round starts in play on face 0. */
  function Init(cfg: Config, points: seq<Point>, rows: seq<real>): (r: Result<(World, GameState), InitError>)
    ensures r.Err? <==> |points| == 0 || cfg.lightsPerBrick == 0
    ensures |points| == 0 ==> r == Err(EmptyCatalog)
    ensures |points| > 0 && cfg.lightsPerBrick == 0 ==> r == Err(ZeroBrickSize)
    ensures r.Ok? ==> r.value.0 == InitWorld(cfg, points, rows)
    ensures r.Ok? ==> r.value.1 == InitState(r.value.0, points)
    ensures r.Ok? ==>
      var w, s := r.value.0, r.value.1;
      && (cfg.lightsPerBrick > 0 ==>
            |s.bricks| == |UpperIndices(points, UpperThreshold(w.zMin, w.zMax))| / cfg.lightsPerBrick)
      && (cfg.lightsPerBrick > 0 ==>
            s.bricks == Partition(points, UpperIndices(points, UpperThreshold(w.zMin, w.zMax)), cfg.lightsPerBrick))
      && (cfg.lightsPerBrick < 0 ==> s.bricks == [])
  {
    if |points| == 0 then Err(EmptyCatalog)
    else if cfg.lightsPerBrick == 0 then Err(ZeroBrickSize)
    else
      var w := InitWorld(cfg, points, rows);
      Ok((w, InitState(w, points)))
  }

  /** The first round over a world: the band's bricks, all active and clear
      of the fall line, the ball above the paddle, nothing counted yet. */
  function InitState(w: World, points: seq<Point>): (s: GameState)
    requires w.cfg.lightsPerBrick != 0 && w.zMin <= w.zMax
    ensures s.bricks == InitialBricks(points, UpperThreshold(w.zMin, w.zMax), w.cfg.lightsPerBrick)
    ensures forall i :: 0 <= i < |s.bricks| ==>
      s.bricks[i].active && s.bricks[i].zMin >= UpperThreshold(w.zMin, w.zMax)
    ensures BricksAboveFallLine(w, s.bricks)
    ensures !s.won && !s.lost && s.fallCount == 0 && s.cooldown == 0 && s.lastBrickHit == -1
    ensures s.gameCount == 0 && s.rotationAngle == 0.0 && s.paddleY == 0.0
    ensures s.winFrames == 0 && s.lossFrames == 0 && s.frameCount == 0
    ensures s.ball == Ball(0.0, w.paddleZ + StartHeight, w.cfg.ballSpeed * StartSpin, w.cfg.ballSpeed)
  {
    var threshold := UpperThreshold(w.zMin, w.zMax);
    InitialBricksFacts(w, points, threshold, w.cfg.lightsPerBrick);
    GameState(
      0.0,
      Ball(0.0, w.paddleZ + StartHeight, w.cfg.ballSpeed * StartSpin, w.cfg.ballSpeed),
      InitialBricks(points, threshold, w.cfg.lightsPerBrick),
      false, false, 0, 0, 0, -1, 0, 0, 0.0, 0)
  }

  lemma InitialBricksFacts(w: World, points: seq<Point>, threshold: real, k: int)
    requires k != 0
    requires w.zMin <= w.zMax && threshold == UpperThreshold(w.zMin, w.zMax)
    ensures k > 0 ==> |InitialBricks(points, threshold, k)| == |UpperIndices(points, threshold)| / k
    ensures forall i :: 0 <= i < |InitialBricks(points, threshold, k)| ==>
      InitialBricks(points, threshold, k)[i].active && InitialBricks(points, threshold, k)[i].zMin >= threshold
    ensures BricksAboveFallLine(w, InitialBricks(points, threshold, k))
  {
    if k > 0 {
      var upper := UpperIndices(points, threshold);
      PartitionCount(points, upper, k);
      PartitionAboveFloor(points, upper, k, threshold);
    }
    AboveFallLineAll(w, InitialBricks(points, threshold, k));
  }

  // ---------------------------------------------------------------------------
  // Paddle AI (animation.py:240-255)

  /** The dead-band step toward the ball, before the clamp. */
  function TrackBall(ballY: real, paddleY: real, speed: real): (p: real)
    ensures p == paddleY + speed || p == paddleY - speed || p == paddleY
    ensures ballY > paddleY + DeadBand ==> p == paddleY + speed
    ensures ballY < paddleY - DeadBand ==> p == paddleY - speed
    ensures Abs(ballY - paddleY) <= DeadBand ==> p == paddleY
  {
    if ballY > paddleY + DeadBand then paddleY + speed
    else if ballY < paddleY - DeadBand then paddleY - speed
    else paddleY
  }

  /** At a speed no larger than twice the dead band (the default 0.02 is),
      a tracking step never takes the paddle farther from the ball. */
  lemma TrackBallApproaches(ballY: real, paddleY: real, speed: real)
    requires 0.0 <= speed <= 2.0 * DeadBand
    ensures Abs(ballY - TrackBall(ballY, paddleY, speed)) <= Abs(ballY - paddleY)
  {
  }

  function PaddleMin(w: World): real { LeftWall + w.cfg.paddleWidth / 2.0 }
  function PaddleMax(w: World): real { RightWall - w.cfg.paddleWidth / 2.0 }

  /** One AI move: the tracking step clamped so that the paddle's span stays
      between the walls; nothing but the paddle moves. */
  function MovePaddle(w: World, s: GameState): (r: GameState)
    ensures r == s.(paddleY := r.paddleY)
    ensures r.paddleY <= PaddleMax(w)
    ensures w.cfg.paddleWidth / 2.0 <= RightWall ==> PaddleMin(w) <= r.paddleY <= PaddleMax(w)
    ensures w.cfg.paddleWidth / 2.0 > RightWall ==> r.paddleY == PaddleMax(w)
    ensures var p := TrackBall(s.ball.y, s.paddleY, w.cfg.paddleSpeed);
      PaddleMin(w) <= p <= PaddleMax(w) ==> r.paddleY == p
    ensures var p := TrackBall(s.ball.y, s.paddleY, w.cfg.paddleSpeed);
      PaddleMin(w) <= PaddleMax(w) ==>
        (p < PaddleMin(w) ==> r.paddleY == PaddleMin(w)) &&
        (p > PaddleMax(w) ==> r.paddleY == PaddleMax(w))
  {
    var stepped := TrackBall(s.ball.y, s.paddleY, w.cfg.paddleSpeed);
    s.(paddleY := Clip(stepped, PaddleMin(w), PaddleMax(w)))
  }

  // ---------------------------------------------------------------------------
  // Ball step (animation.py:257-345)

  /** Explicit Euler: one tick of velocity. */
  function Advance(b: Ball): (r: Ball)
    ensures r.vy == b.vy && r.vz == b.vz
    ensures r.y - b.y == b.vy && r.z - b.z == b.vz
  {
    b.(y := b.y + b.vy, z := b.z + b.vz)
  }

  /** The move is undone by moving once more with the velocity reversed. */
  lemma AdvanceUndo(b: Ball)
    ensures var a := Advance(b);
      Advance(a.(vy := -a.vy, vz := -a.vz)) == b.(vy := -b.vy, vz := -b.vz)
  {
  }

  /** Side walls reflect and clamp the ball horizontally (bounds inclusive);
      the top wall reflects it and pins it to the wall. */
  function BounceWalls(w: World, b: Ball): (r: Ball)
    ensures LeftWall <= r.y <= RightWall
    ensures r.z <= TopWall(w)
    ensures b.y <= LeftWall ==> r.y == LeftWall && r.vy == -b.vy
    ensures b.y >= RightWall ==> r.y == RightWall && r.vy == -b.vy
    ensures LeftWall < b.y < RightWall ==> r.y == b.y && r.vy == b.vy
    ensures b.z >= TopWall(w) ==> r.z == TopWall(w) && r.vz == -b.vz
    ensures b.z < TopWall(w) ==> r.z == b.z && r.vz == b.vz
  {
    var b1 :=
      if b.y <= LeftWall || b.y >= RightWall
      then b.(vy := -b.vy, y := Clip(b.y, LeftWall, RightWall))
      else b;
    if b1.z >= TopWall(w) then b1.(vz := -b1.vz, z := TopWall(w)) else b1
  }

  /** The paddle's collision zone: from a ball radius below the paddle row to
      a little above it, and strictly within half a paddle width. */
  predicate PaddleContact(w: World, paddleY: real, b: Ball)
  {
    && b.z <= w.paddleZ + CollisionHeight
    && b.z >= w.paddleZ - BallRadius
    && Abs(b.y - paddleY) < w.cfg.paddleWidth / 2.0
  }

  /** The contact zone is mirror-symmetric about the paddle's centre, the
      same when ball and paddle are both reflected about the tree's axis,
      and a ball level with the paddle at its centre touches any paddle of
      positive width. */
  lemma PaddleContactShape(w: World, paddleY: real, b: Ball)
    ensures PaddleContact(w, paddleY, b) <==> PaddleContact(w, paddleY, b.(y := 2.0 * paddleY - b.y))
    ensures PaddleContact(w, paddleY, b) <==> PaddleContact(w, -paddleY, b.(y := -b.y))
    ensures w.cfg.paddleWidth > 0.0 && b.y == paddleY && b.z == w.paddleZ ==> PaddleContact(w, paddleY, b)
  {
  }

  lemma SpinBound(offset: real, half: real, speed: real)
    requires Abs(offset) < half
    ensures Abs(offset / half * speed) <= Abs(speed)
    ensures speed != 0.0 ==> Abs(offset / half * speed) < Abs(speed)
  {
    RatioInsideUnit(offset, half);
    ScaleInsideUnit(offset / half, speed);
  }

  /** A paddle hit sends the ball up and sets its sideways speed from the
      hit offset: a centre hit goes straight, and no hit goes faster
      sideways than the ball speed. */
  function BouncePaddle(w: World, paddleY: real, b: Ball): (r: Ball)
    ensures r.y == b.y && r.z == b.z
    ensures !PaddleContact(w, paddleY, b) ==> r == b
    ensures PaddleContact(w, paddleY, b) ==>
      && r.vz == Abs(b.vz)
      && r.vz >= 0.0
      && r.vy == (b.y - paddleY) / (w.cfg.paddleWidth / 2.0) * w.cfg.ballSpeed
      && Abs(r.vy) <= Abs(w.cfg.ballSpeed)
      && (w.cfg.ballSpeed != 0.0 ==> Abs(r.vy) < Abs(w.cfg.ballSpeed))
      && (b.y == paddleY ==> r.vy == 0.0)
  {
    if PaddleContact(w, paddleY, b) then
      var hit := (b.y - paddleY) / (w.cfg.paddleWidth / 2.0);
      SpinBound(b.y - paddleY, w.cfg.paddleWidth / 2.0, w.cfg.ballSpeed);
      b.(vz := Abs(b.vz), vy := hit * w.cfg.ballSpeed)
    else b
  }

  /** The brick scan of one tick. While the cooldown runs it only counts
      down. Otherwise, when the ball is in some active brick's widened box,
      the first such brick is switched off, the ball turns vertically, the
      cooldown restarts at 5 and the brick is remembered; with no such brick
      nothing changes. */
  function HitBricks(s: GameState): (r: GameState)
    ensures s.cooldown > 0 ==> r == s.(cooldown := s.cooldown - 1)
    ensures s.cooldown == 0 && (forall i :: 0 <= i < |s.bricks| ==> !Hits(s.bricks[i], s.ball.y, s.ball.z)) ==>
      r == s
    ensures s.cooldown == 0 && (exists i :: 0 <= i < |s.bricks| && Hits(s.bricks[i], s.ball.y, s.ball.z)) ==>
      exists i :: FirstHitAt(s.bricks, s.ball.y, s.ball.z, i) &&
        r == s.(bricks := Deactivate(s.bricks, i),
                ball := s.ball.(vz := -s.ball.vz),
                lastBrickHit := i,
                cooldown := HitCooldown)
  {
    if s.cooldown > 0 then s.(cooldown := s.cooldown - 1)
    else
      match FirstHit(s.bricks, s.ball.y, s.ball.z)
      case None => s
      case Some(i) =>
        s.(bricks := Deactivate(s.bricks, i),
           ball := s.ball.(vz := -s.ball.vz),
           lastBrickHit := i,
           cooldown := HitCooldown)
  }

  /** What the scan keeps: the layout, every field but the bricks' flags,
      the ball's vertical speed, the cooldown and the last hit, and every
      brick already out. The cooldown counts down or restarts at 5, and the
      last hit changes only to a brick the scan switched off. */
  lemma HitBricksKeeps(s: GameState)
    ensures var r := HitBricks(s);
      && r == s.(bricks := r.bricks, ball := r.ball, cooldown := r.cooldown, lastBrickHit := r.lastBrickHit)
      && r.ball == s.ball.(vz := r.ball.vz)
      && SameLayout(s.bricks, r.bricks)
      && (forall i :: 0 <= i < |r.bricks| && r.bricks[i].active ==> s.bricks[i].active)
      && (s.cooldown > 0 ==> r.cooldown == s.cooldown - 1 && r.bricks == s.bricks)
      && (s.cooldown == 0 ==> r.cooldown == 0 || r.cooldown == HitCooldown)
      && (r.lastBrickHit == s.lastBrickHit || Deactivated(s.bricks, r.bricks, r.lastBrickHit))
  {
    var r := HitBricks(s);
    if s.cooldown == 0 {
      match FirstHit(s.bricks, s.ball.y, s.ball.z)
      case None =>
      case Some(i) =>
        assert Deactivated(s.bricks, r.bricks, i);
    }
  }

  /** What the scan switches off: at most one brick, only outside the
      cooldown and only the first hit brick, which is then recorded with the
      cooldown restarted; the active count drops by at most one. */
  lemma HitBricksOnce(s: GameState)
    ensures var r := HitBricks(s);
      && (forall i, j :: Deactivated(s.bricks, r.bricks, i) && Deactivated(s.bricks, r.bricks, j) ==> i == j)
      && (forall i :: Deactivated(s.bricks, r.bricks, i) ==>
            s.cooldown == 0 && FirstHitAt(s.bricks, s.ball.y, s.ball.z, i) &&
            r.cooldown == HitCooldown && r.lastBrickHit == i)
      && (CountActive(r.bricks) == CountActive(s.bricks) || CountActive(r.bricks) == CountActive(s.bricks) - 1)
  {
    if s.cooldown == 0 {
      match FirstHit(s.bricks, s.ball.y, s.ball.z)
      case None =>
      case Some(i) =>
        DeactivateCount(s.bricks, i);
    }
  }

  /** Puts the ball back above the paddle, heading up (animation.py:341-345). */
  function ResetBall(w: World, s: GameState): (r: GameState)
    ensures r == s.(ball := r.ball)
    ensures r.ball.y == s.paddleY && r.ball.z == w.paddleZ + RespawnHeight
    ensures r.ball.vy == s.ball.vy && r.ball.vz == Abs(s.ball.vz) && r.ball.vz >= 0.0
    ensures !PaddleContact(w, r.paddleY, r.ball)
  {
    s.(ball := Ball(s.paddleY, w.paddleZ + RespawnHeight, s.ball.vy, Abs(s.ball.vz)))
  }

  /** The lives counter. A ball below the fall line during play costs a life:
      the count goes up by one and the game is lost exactly when the new count
      is a multiple of 3 (otherwise the ball respawns). After a win or a loss
      a fallen ball only respawns, upward. */
  function HandleFall(w: World, s: GameState): (r: GameState)
    ensures r.bricks == s.bricks && r.won == s.won && r.winFrames == s.winFrames
    ensures r.cooldown == s.cooldown && r.lastBrickHit == s.lastBrickHit && r.paddleY == s.paddleY
    ensures r.gameCount == s.gameCount && r.rotationAngle == s.rotationAngle && r.frameCount == s.frameCount
    ensures s.ball.z >= FallLine(w) ==> r == s
    ensures s.ball.z < FallLine(w) && !s.won && !s.lost ==>
      && r.fallCount == s.fallCount + 1
      && (r.lost <==> r.fallCount % Lives == 0)
      && (r.lost ==> r.lossFrames == 0 && r.ball == s.ball)
      && (!r.lost ==> r == ResetBall(w, s).(fallCount := r.fallCount))
    ensures s.ball.z < FallLine(w) && (s.won || s.lost) ==>
      r == ResetBall(w, s) && r.ball.vz >= 0.0
  {
    if s.ball.z < FallLine(w) then
      if !s.won && !s.lost then
        var s1 := s.(fallCount := s.fallCount + 1);
        if s1.fallCount % Lives == 0 then s1.(lost := true, lossFrames := 0)
        else ResetBall(w, s1)
      else ResetBall(w, s)
    else s
  }

  /** Win detection: once no brick is active the round is won (the win
      animation counter starts at 0); with any brick active nothing changes. */
  function CheckWin(s: GameState): (r: GameState)
    ensures r == s.(won := r.won, winFrames := r.winFrames)
    ensures r.won <==> s.won || !AnyActive(s.bricks)
    ensures !s.won && !AnyActive(s.bricks) ==> r.winFrames == 0
    ensures s.won || AnyActive(s.bricks) ==> r == s
  {
    if CountActive(s.bricks) == 0 && !s.won then s.(won := true, winFrames := 0) else s
  }

  /** The ball's whole tick: move, walls, paddle, bricks, fall, win
      (animation.py:257-339). At most one brick goes out, none comes back,
      the layout never changes, the cooldown counts down or restarts at 5,
      a fall costs at most one life, and a board without active bricks is won. */
  function MoveBall(w: World, s: GameState): (r: GameState)
    ensures SameLayout(s.bricks, r.bricks)
    ensures forall i :: 0 <= i < |r.bricks| && r.bricks[i].active ==> s.bricks[i].active
    ensures forall i, j :: Deactivated(s.bricks, r.bricks, i) && Deactivated(s.bricks, r.bricks, j) ==> i == j
    ensures CountActive(r.bricks) == CountActive(s.bricks) ||
      CountActive(r.bricks) == CountActive(s.bricks) - 1
    ensures s.cooldown > 0 ==> r.cooldown == s.cooldown - 1 && r.bricks == s.bricks
    ensures forall i :: Deactivated(s.bricks, r.bricks, i) ==>
      s.cooldown == 0 && r.cooldown == HitCooldown && r.lastBrickHit == i
    ensures !AnyActive(r.bricks) ==> r.won
    ensures s.won ==> r.won
    ensures s.lost ==> r.lost
    ensures r.won && !s.won ==> !AnyActive(r.bricks) && r.winFrames == 0
    ensures r.fallCount == s.fallCount || (r.fallCount == s.fallCount + 1 && !s.won && !s.lost)
    ensures r.fallCount == s.fallCount + 1 ==> (r.lost <==> r.fallCount % Lives == 0)
    ensures r.lost && !s.lost ==> r.fallCount == s.fallCount + 1 && r.lossFrames == 0
    ensures r.paddleY == s.paddleY && r.gameCount == s.gameCount
    ensures r.rotationAngle == s.rotationAngle && r.frameCount == s.frameCount
    ensures s.cooldown == 0 ==> r.cooldown == 0 || r.cooldown == HitCooldown
    ensures r.lastBrickHit == s.lastBrickHit || Deactivated(s.bricks, r.bricks, r.lastBrickHit)
  {
    var moved := BounceWalls(w, Advance(s.ball));
    var s1 := s.(ball := BouncePaddle(w, s.paddleY, moved));
    HitBricksKeeps(s1);
    HitBricksOnce(s1);
    CheckWin(HandleFall(w, HitBricks(s1)))
  }

  /** With every widened brick box above the fall line, the tick in which a
      brick goes out is never a tick in which the ball is lost, so a round in
      play with a brick left cannot end both won and lost. */
  lemma MoveBallNotWonAndLost(w: World, s: GameState)
    requires BricksAboveFallLine(w, s.bricks)
    requires !s.won && !s.lost && AnyActive(s.bricks)
    ensures !(MoveBall(w, s).won && MoveBall(w, s).lost)
  {
    var moved := BounceWalls(w, Advance(s.ball));
    var s1 := s.(ball := BouncePaddle(w, s.paddleY, moved));
    var s2 := HitBricks(s1);
    HitBricksKeeps(s1);
    HitBricksOnce(s1);
    var s3 := HandleFall(w, s2);
    var r := CheckWin(s3);
    assert r == MoveBall(w, s);
    AboveFallLineAll(w, s.bricks);
    if r.lost {
      assert s1.ball.z == s2.ball.z < FallLine(w);
      assert forall i :: 0 <= i < |s1.bricks| ==> !Hits(s1.bricks[i], s1.ball.y, s1.ball.z);
      assert s2.bricks == s.bricks;
      assert !r.won;
    }
  }

  /** The play step of a tick: paddle first, then ball. */
  function PlayStep(w: World, s: GameState): (r: GameState)
    ensures r.gameCount == s.gameCount && r.frameCount == s.frameCount
    ensures r.rotationAngle == s.rotationAngle
    ensures s.won ==> r.won
    ensures s.lost ==> r.lost
  {
    MoveBall(w, MovePaddle(w, s))
  }

  /** The viewing face f of the 6 evenly spaced faces, as a rotation angle. */
  function FaceAngle(w: World, f: nat): real
  {
    w.cfg.twoPi / FacesPerCycle as real * f as real
  }

  /** A new game (animation.py:347-366): every brick back in play with its
      layout untouched, the ball respawned, flags, counters and the lives
      counter cleared, one more game counted, and the view turned to face
      gameCount mod 6, an angle in [0, 2π). */
  function ResetGame(w: World, s: GameState): (r: GameState)
    ensures SameLayout(s.bricks, r.bricks)
    ensures CountActive(r.bricks) == |r.bricks|
    ensures forall i :: 0 <= i < |r.bricks| ==> r.bricks[i].active
    ensures !r.won && !r.lost
    ensures r.winFrames == 0 && r.lossFrames == 0 && r.fallCount == 0
    ensures r.cooldown == 0 && r.lastBrickHit == -1
    ensures r.gameCount == s.gameCount + 1
    ensures r.rotationAngle == FaceAngle(w, r.gameCount % FacesPerCycle)
    ensures w.cfg.twoPi > 0.0 ==> 0.0 <= r.rotationAngle < w.cfg.twoPi
    ensures r.ball == ResetBall(w, s).ball
    ensures r.paddleY == s.paddleY && r.frameCount == s.frameCount
  {
    var s1 := ResetBall(w, s.(bricks := Reactivate(s.bricks)));
    var games := s.gameCount + 1;
    FaceAngleBounds(w, games % FacesPerCycle);
    s1.(won := false, lost := false,
        winFrames := 0, lossFrames := 0,
        fallCount := 0, lastBrickHit := -1, cooldown := 0,
        gameCount := games,
        rotationAngle := FaceAngle(w, games % FacesPerCycle))
  }

  lemma FaceAngleBounds(w: World, f: nat)
    requires f < FacesPerCycle
    ensures w.cfg.twoPi > 0.0 ==> 0.0 <= FaceAngle(w, f) < w.cfg.twoPi
  {
    var step := w.cfg.twoPi / 6.0;
    assert FaceAngle(w, f) == step * f as real;
    ScaleMono(0.0, f as real, step);
    ScaleMono(f as real, 5.0, step);
    assert step * 5.0 < step * 6.0 == w.cfg.twoPi || step <= 0.0;
  }
}

=== FILE: losswash.dfy ===
/** The loss wash (animation.py:500-523): a front that sweeps the tree from
    top to bottom over 120 frames, with a linear edge 0.15 wide, rendered in
    white at a per-light brightness. */
module LossWash {
  import opened RealMath

  /** Frames over which the front sweeps the whole height. */
  const WashFrames: real := 120.0
  /** Width of the soft edge, as a fraction of the tree height. */
  const WashBand: real := 0.15

  /** A light's depth below the top of the tree, 0 at the top light and 1 at
      the bottom one. */
  function FromTop(zMin: real, zMax: real, z: real): (t: real)
    requires zMin < zMax
    ensures zMin <= z <= zMax ==> 0.0 <= t <= 1.0
    ensures z == zMax ==> t == 0.0
    ensures z == zMin ==> t == 1.0
  {
    var range := zMax - zMin;
    DivMono(0.0, z - zMin, range);
    DivMono(z - zMin, range, range);
    1.0 - (z - zMin) / range
  }

  /** Higher lights are nearer the top. */
  lemma FromTopMono(zMin: real, zMax: real, z1: real, z2: real)
    requires zMin < zMax && z1 <= z2
    ensures FromTop(zMin, zMax, z2) <= FromTop(zMin, zMax, z1)
  {
    DivMono(z1 - zMin, z2 - zMin, zMax - zMin);
  }

  /** The front's depth after a number of loss frames: 0 at the start,
      1.15 (past the bottom by the edge width) at frame 120. */
  function Front(frames: nat): (f: real)
    ensures f >= 0.0
    ensures frames == 0 ==> f == 0.0
    ensures frames as real >= WashFrames ==> f >= 1.0 + WashBand
  {
    frames as real / WashFrames * (1.0 + WashBand)
  }

  lemma FrontMono(f1: nat, f2: nat)
    requires f1 <= f2
    ensures Front(f1) <= Front(f2)
  {
  }

  /** Brightness of a light at a given depth: full where the light is at or
      below the front, dark an edge width or more above it, linear in
      between; always within [0, 1]. */
  function Brightness(frames: nat, fromTop: real): (b: real)
    ensures 0.0 <= b <= 1.0
    ensures fromTop >= Front(frames) ==> b == 1.0
    ensures fromTop <= Front(frames) - WashBand ==> b == 0.0
    ensures Front(frames) - WashBand < fromTop < Front(frames) ==> 0.0 < b < 1.0
  {
    Clip(1.0 - (Front(frames) - fromTop) / WashBand, 0.0, 1.0)
  }

  /** As the loss frames go by, no light gets brighter. */
  lemma BrightnessFalls(f1: nat, f2: nat, fromTop: real)
    requires f1 <= f2
    ensures Brightness(f2, fromTop) <= Brightness(f1, fromTop)
  {
    FrontMono(f1, f2);
    ClipMono(1.0 - (Front(f2) - fromTop) / WashBand, 1.0 - (Front(f1) - fromTop) / WashBand, 0.0, 1.0);
  }

  /** In any frame, a higher light is no brighter than a lower one: the
      screen darkens from the top. */
  lemma BrightnessByHeight(zMin: real, zMax: real, frames: nat, z1: real, z2: real)
    requires zMin < zMax && z1 <= z2
    ensures Brightness(frames, FromTop(zMin, zMax, z2)) <= Brightness(frames, FromTop(zMin, zMax, z1))
  {
    var t1, t2 := FromTop(zMin, zMax, z1), FromTop(zMin, zMax, z2);
    FromTopMono(zMin, zMax, z1, z2);
    ClipMono(1.0 - (Front(frames) - t2) / WashBand, 1.0 - (Front(frames) - t1) / WashBand, 0.0, 1.0);
  }

  /** One colour channel of a light: white scaled by the brightness and
      truncated to an 8-bit value. */
  function Channel(b: real): (c: int)
    requires 0.0 <= b <= 1.0
    ensures 0 <= c <= 255
    ensures c as real <= 255.0 * b < c as real + 1.0
  {
    (255.0 * b).Floor
  }

  /** The wash over the whole catalog: one channel value per light. */
  function WashFrame(zMin: real, zMax: real, zs: seq<real>, frames: nat): (px: seq<int>)
    requires zMin < zMax
    ensures |px| == |zs|
    ensures forall i :: 0 <= i < |zs| ==> 0 <= px[i] <= 255
    ensures forall i :: 0 <= i < |zs| ==> px[i] == Channel(Brightness(frames, FromTop(zMin, zMax, zs[i])))
  {
    seq(|zs|, i requires 0 <= i < |zs| => Channel(Brightness(frames, FromTop(zMin, zMax, zs[i]))))
  }

  /** In any frame, a light at or below the front is fully white and a light
      an edge width or more above it is dark. */
  lemma WashByFront(zMin: real, zMax: real, zs: seq<real>, frames: nat)
    requires zMin < zMax
    ensures forall i :: 0 <= i < |zs| && Front(frames) <= FromTop(zMin, zMax, zs[i]) ==>
      WashFrame(zMin, zMax, zs, frames)[i] == 255
    ensures forall i :: 0 <= i < |zs| && FromTop(zMin, zMax, zs[i]) <= Front(frames) - WashBand ==>
      WashFrame(zMin, zMax, zs, frames)[i] == 0
  {
  }

  /** The first frame the animation shows is frame 1, and the top light is
      already dimmed there, to 238 of 255. */
  lemma WashFirstShownFrame(zMin: real, zMax: real)
    requires zMin < zMax
    ensures Channel(Brightness(1, FromTop(zMin, zMax, zMax))) == 238
  {
    var b := Brightness(1, 0.0);
    assert b == 1.0 - (1.0 / 120.0 * 1.15) / 0.15;
  }

  /** The last frame the animation shows is frame 119, and the bottom light
      is still lit there, at 16 of 255. */
  lemma WashLastShownFrame(zMin: real, zMax: real)
    requires zMin < zMax
    ensures Channel(Brightness(119, FromTop(zMin, zMax, zMin))) == 16
  {
    var b := Brightness(119, 1.0);
    assert b == 1.0 - (119.0 / 120.0 * 1.15 - 1.0) / 0.15;
  }

  /** At frame 0, which the animation never shows, the formula gives every
      light of the catalog fully white. */
  lemma WashStartsWhite(zMin: real, zMax: real, zs: seq<real>)
    requires zMin < zMax
    requires forall i :: 0 <= i < |zs| ==> zMin <= zs[i] <= zMax
    ensures forall i :: 0 <= i < |zs| ==> WashFrame(zMin, zMax, zs, 0)[i] == 255
  {
  }

  /** From frame 120 on, which the animation never shows, the formula gives
      every light dark. */
  lemma WashEndsDark(zMin: real, zMax: real, zs: seq<real>, frames: nat)
    requires zMin < zMax
    requires forall i :: 0 <= i < |zs| ==> zMin <= zs[i] <= zMax
    requires frames as real >= WashFrames
    ensures forall i :: 0 <= i < |zs| ==> WashFrame(zMin, zMax, zs, frames)[i] == 0
  {
  }
}

=== FILE: realmath.dfy ===
/** Exact real-valued stand-ins for the numpy helpers the game uses:
    abs, minimum/maximum, clip, and min/max/mean over a non-empty array. */
module RealMath {

  function Abs(x: real): (r: real)
    ensures r >= 0.0
    ensures r == x || r == -x
  {
    if x < 0.0 then -x else x
  }

  function Min(a: real, b: real): (r: real)
    ensures r <= a && r <= b
    ensures r == a || r == b
  {
    if a <= b then a else b
  }

  function Max(a: real, b: real): (r: real)
    ensures r >= a && r >= b
    ensures r == a || r == b
  {
    if a >= b then a else b
  }

  /** numpy.clip: the lower bound is applied first and the upper bound last,
      so an empty interval (lo > hi) yields hi. */
  function Clip(x: real, lo: real, hi: real): (r: real)
    ensures r <= hi
    ensures lo <= hi ==> lo <= r
    ensures lo <= x <= hi ==> r == x
    ensures x < lo && lo <= hi ==> r == lo
    ensures x > hi ==> r == hi
    ensures lo > hi ==> r == hi
  {
    Min(Max(x, lo), hi)
  }

  /** numpy.min over a non-empty array: an element that bounds all others from below. */
  function SeqMin(s: seq<real>): (r: real)
    requires |s| > 0
    ensures r in s
    ensures forall i :: 0 <= i < |s| ==> r <= s[i]
  {
    if |s| == 1 then s[0] else Min(s[0], SeqMin(s[1..]))
  }

  /** numpy.max over a non-empty array: an element that bounds all others from above. */
  function SeqMax(s: seq<real>): (r: real)
    requires |s| > 0
    ensures r in s
    ensures forall i :: 0 <= i < |s| ==> s[i] <= r
  {
    if |s| == 1 then s[0] else Max(s[0], SeqMax(s[1..]))
  }

  function Sum(s: seq<real>): real
  {
    if |s| == 0 then 0.0 else s[0] + Sum(s[1..])
  }

  /** A sum of n terms, each within [lo, hi], lies within [n*lo, n*hi]. */
  lemma {:induction false} SumBounds(s: seq<real>, lo: real, hi: real)
    requires forall i :: 0 <= i < |s| ==> lo <= s[i] <= hi
    ensures |s| as real * lo <= Sum(s) <= |s| as real * hi
  {
    if |s| > 0 {
      assert forall i :: 0 <= i < |s[1..]| ==> s[1..][i] == s[i + 1];
      SumBounds(s[1..], lo, hi);
      var n := (|s| - 1) as real;
      assert n * lo <= Sum(s[1..]) <= n * hi;
      assert |s| as real * lo == n * lo + lo;
      assert |s| as real * hi == n * hi + hi;
      assert Sum(s) == s[0] + Sum(s[1..]);
    }
  }

  /** numpy.mean over a non-empty array: it lies between the minimum and the maximum. */
  function Mean(s: seq<real>): (r: real)
    requires |s| > 0
    ensures SeqMin(s) <= r <= SeqMax(s)
  {
    MeanWithin(s, SeqMin(s), SeqMax(s));
    Sum(s) / |s| as real
  }

  /** The mean of terms within [lo, hi] lies within [lo, hi]. */
  lemma MeanWithin(s: seq<real>, lo: real, hi: real)
    requires |s| > 0
    requires forall i :: 0 <= i < |s| ==> lo <= s[i] <= hi
    ensures lo <= Sum(s) / |s| as real <= hi
  {
    var n := |s| as real;
    SumBounds(s, lo, hi);
    DivideBounds(Sum(s), n, lo, hi);
  }

  lemma DivideBounds(total: real, n: real, lo: real, hi: real)
    requires n > 0.0
    requires n * lo <= total <= n * hi
    ensures lo <= total / n <= hi
  {
    assert total / n * n == total;
  }

  /** Scaling by a positive factor keeps a non-strict order. */
  lemma ScaleMono(a: real, b: real, c: real)
    ensures a <= b && c > 0.0 ==> a * c <= b * c
  {
  }

  /** Scaling by a positive factor keeps a strict order. */
  lemma StrictScale(a: real, b: real, c: real)
    ensures a < b && c > 0.0 ==> a * c < b * c
  {
  }

  /** Negating one factor negates the product. */
  lemma NegateFactor(a: real, b: real)
    ensures a * -b == -(a * b)
  {
  }

  /** A number smaller in magnitude than a bound, divided by that bound,
      lies strictly between -1 and 1. */
  lemma RatioInsideUnit(x: real, d: real)
    requires Abs(x) < d
    ensures -1.0 < x / d < 1.0
  {
    var h := x / d;
    assert h * d == x;
    ScaleMono(1.0, h, d);
    ScaleMono(h, -1.0, d);
  }

  /** Multiplying by a factor strictly inside (-1, 1) shrinks the magnitude,
      strictly unless the other factor is zero. */
  lemma ScaleInsideUnit(h: real, x: real)
    requires -1.0 < h < 1.0
    ensures Abs(h * x) <= Abs(x)
    ensures x != 0.0 ==> Abs(h * x) < Abs(x)
  {
    if x > 0.0 {
      StrictScale(h, 1.0, x);
      StrictScale(-1.0, h, x);
    } else if x < 0.0 {
      StrictScale(h, 1.0, -x);
      StrictScale(-1.0, h, -x);
      NegateFactor(h, x);
    }
  }

  /** Clipping preserves order. */
  lemma ClipMono(x: real, y: real, lo: real, hi: real)
    requires x <= y
    ensures Clip(x, lo, hi) <= Clip(y, lo, hi)
  {
  }

  /** Dividing by a positive number preserves order. */
  lemma DivMono(a: real, b: real, d: real)
    ensures a <= b && d > 0.0 ==> a / d <= b / d
  {
    if d > 0.0 {
      assert a / d * d == a && b / d * d == b;
      ScaleMono(b / d, a / d, d);
    }
  }
}

=== FILE: statemachine.dfy ===
/** The per-frame driver (animation.py:368-403): the view angle turns, a
    lost round shows the wash for 120 frames and a won round the celebration
    for 90 before a new game starts; any other frame plays one paddle move
    and one ball step. */
module StateMachine {
  import opened RealMath
  import opened Bricks
  import opened Game

  const LossDuration: nat := 120
  const WinDuration: nat := 90

  /** What a frame shows: the loss wash or the win celebration at a given
      animation frame, or the board (bricks, paddle and ball). */
  datatype Render = Wash(frames: nat) | Celebration(frames: nat) | Board

  datatype Step = Step(next: GameState, render: Render)

  /** The view angle advanced by the rotation speed and wrapped once by 2π;
      an angle of exactly 2π is kept. */
  function WrapAngle(a: real, speed: real, twoPi: real): (r: real)
    ensures r == a + speed || r == a + speed - twoPi || r == a + speed + twoPi
    ensures 0.0 <= a + speed <= twoPi ==> r == a + speed
    ensures twoPi > 0.0 && 0.0 <= a <= twoPi && Abs(speed) <= twoPi ==> 0.0 <= r <= twoPi
  {
    var b := a + speed;
    if b > twoPi then b - twoPi
    else if b < 0.0 then b + twoPi
    else b
  }

  /** The part of every frame that precedes the phase logic. */
  function Clock(w: World, s: GameState): (r: GameState)
    ensures r == s.(frameCount := s.frameCount + 1, rotationAngle := r.rotationAngle)
    ensures r.rotationAngle == WrapAngle(s.rotationAngle, w.cfg.rotationSpeed, w.cfg.twoPi)
    ensures Sane(w) && 0.0 <= s.rotationAngle <= w.cfg.twoPi ==> 0.0 <= r.rotationAngle <= w.cfg.twoPi
  {
    s.(frameCount := s.frameCount + 1,
       rotationAngle := WrapAngle(s.rotationAngle, w.cfg.rotationSpeed, w.cfg.twoPi))
  }

  /** What a play step does to the wall and the counters: the layout and
      the game count are kept, at most one brick goes out and none comes
      back, and a board with two active bricks is not won by it. */
  lemma PlayFacts(w: World, s: GameState)
    ensures SameLayout(s.bricks, PlayStep(w, s).bricks)
    ensures PlayStep(w, s).gameCount == s.gameCount
    ensures PlayStep(w, s).frameCount == s.frameCount
    ensures forall i :: 0 <= i < |PlayStep(w, s).bricks| && PlayStep(w, s).bricks[i].active ==> s.bricks[i].active
    ensures CountActive(s.bricks) - 1 <= CountActive(PlayStep(w, s).bricks) <= CountActive(s.bricks)
    ensures CountActive(s.bricks) > 1 && !s.won ==> !PlayStep(w, s).won
    ensures forall i, j ::
      Deactivated(s.bricks, PlayStep(w, s).bricks, i) && Deactivated(s.bricks, PlayStep(w, s).bricks, j) ==> i == j
  {
    var m := MovePaddle(w, s);
    assert m.bricks == s.bricks && m.won == s.won;
    var r := MoveBall(w, m);
    assert r == PlayStep(w, s);
    if CountActive(s.bricks) > 1 && !s.won {
      assert CountActive(r.bricks) > 0;
    }
  }

  /** What a play step does to the lives: at most one is lost, a lost round
      stays lost, and a round with two lives or more left is not lost. */
  lemma PlayLives(w: World, s: GameState)
    ensures PlayStep(w, s).fallCount <= s.fallCount + 1
    ensures s.lost ==> PlayStep(w, s).lost
    ensures !s.lost && s.fallCount + 1 < Lives ==> !PlayStep(w, s).lost
  {
    var m := MovePaddle(w, s);
    assert m.lost == s.lost && m.fallCount == s.fallCount;
    var r := MoveBall(w, m);
    assert r == PlayStep(w, s);
    LastLife(r.fallCount);
  }

  /** The frame that ends an animation: a new game, and since the new game
      is neither won nor lost, the frame falls through to one play step.
      The new game is counted, not lost, has lost at most one ball and at
      most one brick, and is not won when it has two bricks or more. */
  function NewGameFrame(w: World, s: GameState): (r: GameState)
    ensures SameLayout(s.bricks, r.bricks)
    ensures r.gameCount == s.gameCount + 1 && r.frameCount == s.frameCount
    ensures !r.lost && r.fallCount <= 1
    ensures CountActive(r.bricks) + 1 >= |r.bricks|
    ensures |s.bricks| > 1 ==> !r.won
    ensures r.rotationAngle == FaceAngle(w, r.gameCount % FacesPerCycle)
    ensures forall i, j ::
      0 <= i < |r.bricks| && 0 <= j < |r.bricks| && !r.bricks[i].active && !r.bricks[j].active ==> i == j
  {
    var g := ResetGame(w, s);
    NewGameBricks(w, s);
    PlayLives(w, g);
    PlayStep(w, g)
  }

  /** The bricks after the new-game frame: the layout is kept, at most one
      brick is off, and a board of two bricks or more is not won. */
  lemma NewGameBricks(w: World, s: GameState)
    ensures SameLayout(s.bricks, PlayStep(w, ResetGame(w, s)).bricks)
    ensures CountActive(PlayStep(w, ResetGame(w, s)).bricks) + 1 >= |s.bricks|
    ensures |s.bricks| > 1 ==> !PlayStep(w, ResetGame(w, s)).won
    ensures var r := PlayStep(w, ResetGame(w, s)).bricks;
      forall i, j :: 0 <= i < |r| && 0 <= j < |r| && !r[i].active && !r[j].active ==> i == j
  {
    var g := ResetGame(w, s);
    PlayFacts(w, g);
    OneOffAfterReset(w, g);
    SameLayoutTrans(s.bricks, g.bricks, PlayStep(w, g).bricks);
  }

  lemma SameLayoutTrans(a: seq<Brick>, b: seq<Brick>, c: seq<Brick>)
    requires SameLayout(a, b) && SameLayout(b, c)
    ensures SameLayout(a, c)
  {
  }

  /** From a board with every brick active, a play step leaves at most one
      brick switched off. */
  lemma OneOffAfterReset(w: World, g: GameState)
    requires forall i :: 0 <= i < |g.bricks| ==> g.bricks[i].active
    ensures var r := PlayStep(w, g).bricks;
      forall i, j :: 0 <= i < |r| && 0 <= j < |r| && !r[i].active && !r[j].active ==> i == j
  {
    PlayFacts(w, g);
    var r := PlayStep(w, g).bricks;
    forall i, j | 0 <= i < |r| && 0 <= j < |r| && !r[i].active && !r[j].active
      ensures i == j
    {
      assert Deactivated(g.bricks, r, i) && Deactivated(g.bricks, r, j);
    }
  }

  /** One frame. The loss check comes first: a lost round counts a loss
      frame and shows the wash until the 120th, which starts a new game; a
      won round does the same with 90 celebration frames. A round neither
      won nor lost plays. */
  function Tick(w: World, s: GameState): (st: Step)
    ensures st.next.frameCount == s.frameCount + 1
    ensures SameLayout(s.bricks, st.next.bricks)
    ensures s.lost && s.lossFrames + 1 < LossDuration ==>
      st.render == Wash(s.lossFrames + 1) &&
      st.next == Clock(w, s).(lossFrames := s.lossFrames + 1)
    ensures !s.lost && s.won && s.winFrames + 1 < WinDuration ==>
      st.render == Celebration(s.winFrames + 1) &&
      st.next == Clock(w, s).(winFrames := s.winFrames + 1)
    ensures s.lost ==> !st.render.Celebration?
    ensures st.render == Board <==>
      (s.lost && s.lossFrames + 1 >= LossDuration) ||
      (!s.lost && (!s.won || s.winFrames + 1 >= WinDuration))
    ensures (s.lost && s.lossFrames + 1 >= LossDuration) ||
            (!s.lost && s.won && s.winFrames + 1 >= WinDuration) ==>
      st.next.gameCount == s.gameCount + 1 && !st.next.lost
    ensures !s.lost && !s.won ==>
      st.render == Board && st.next.gameCount == s.gameCount
    ensures !s.lost && !s.won ==> st.next == PlayStep(w, Clock(w, s))
    ensures s.lost && s.lossFrames + 1 >= LossDuration ==>
      st.next == NewGameFrame(w, Clock(w, s).(lossFrames := s.lossFrames + 1))
    ensures !s.lost && s.won && s.winFrames + 1 >= WinDuration ==>
      st.next == NewGameFrame(w, Clock(w, s).(winFrames := s.winFrames + 1))
    ensures forall i, j :: Deactivated(s.bricks, st.next.bricks, i) && Deactivated(s.bricks, st.next.bricks, j) ==> i == j
  {
    var s0 := Clock(w, s);
    if s0.lost then
      if s0.lossFrames + 1 < LossDuration then
        Step(s0.(lossFrames := s0.lossFrames + 1), Wash(s0.lossFrames + 1))
      else
        Step(NewGameFrame(w, s0.(lossFrames := s0.lossFrames + 1)), Board)
    else if s0.won then
      if s0.winFrames + 1 < WinDuration then
        Step(s0.(winFrames := s0.winFrames + 1), Celebration(s0.winFrames + 1))
      else
        Step(NewGameFrame(w, s0.(winFrames := s0.winFrames + 1)), Board)
    else
      PlayFacts(w, s0);
      Step(PlayStep(w, s0), Board)
  }

  /** The loss wash is rendered exactly while a lost round is mid-animation,
      and only for frames 1 to 119: frames 0 and 120 are never shown. */
  lemma WashFramesShown(w: World, s: GameState)
    ensures Tick(w, s).render.Wash? <==> s.lost && s.lossFrames + 1 < LossDuration
    ensures Tick(w, s).render.Wash? ==> 1 <= Tick(w, s).render.frames < LossDuration
  {
  }

  /** Frames in sequence: the state after n of them. */
  function Run(w: World, s: GameState, n: nat): GameState
    decreases n
  {
    if n == 0 then s else Tick(w, Run(w, s, n - 1)).next
  }

  /** Settings under which the view angle stays in [0, 2π]. */
  predicate Sane(w: World)
  {
    w.cfg.twoPi > 0.0 && Abs(w.cfg.rotationSpeed) <= w.cfg.twoPi
  }

  /** The invariant of every reachable state: bricks clear the fall line, a
      round is never both won and lost, a round in play with no brick left
      has not lost a ball yet, the lives counter stays within 3 and reads 3
      exactly in a lost round, the animations are mid-way, the cooldown and
      the last hit are in range, and the angle is in [0, 2π]. */
  predicate Inv(w: World, s: GameState)
  {
    && BricksAboveFallLine(w, s.bricks)
    && !(s.won && s.lost)
    && (!s.won && !s.lost && !AnyActive(s.bricks) ==> s.fallCount == 0)
    && s.fallCount <= Lives
    && (s.lost <==> s.fallCount == Lives)
    && (s.lost ==> s.lossFrames < LossDuration)
    && (s.won ==> s.winFrames < WinDuration)
    && s.cooldown <= HitCooldown
    && -1 <= s.lastBrickHit < |s.bricks|
    && 0.0 <= s.rotationAngle <= w.cfg.twoPi
  }

  /** A freshly built game satisfies the invariant. */
  lemma InitInv(cfg: Config, points: seq<Point>, rows: seq<real>)
    requires Init(cfg, points, rows).Ok?
    requires cfg.twoPi > 0.0
    ensures Inv(Init(cfg, points, rows).value.0, Init(cfg, points, rows).value.1)
  {
  }

  lemma SameLayoutAboveFallLine(w: World, a: seq<Brick>, b: seq<Brick>)
    requires SameLayout(a, b)
    ensures BricksAboveFallLine(w, a) ==> BricksAboveFallLine(w, b)
  {
    assert forall i :: 0 <= i < |a| ==> a[i].zMin == b[i].zMin;
    AboveFallLineAll(w, a);
    AboveFallLineAll(w, b);
  }

  /** A play step from a state in play keeps the invariant; it leaves the
      angle alone. */
  lemma PlayKeepsInv(w: World, s: GameState)
    requires Inv(w, s) && !s.won && !s.lost
    ensures Inv(w, PlayStep(w, s))
  {
    var m := MovePaddle(w, s);
    assert m == s.(paddleY := m.paddleY);
    assert Inv(w, m);
    MoveBallKeepsInv(w, m);
  }

  /** The ball phase of a play step keeps the invariant. */
  lemma MoveBallKeepsInv(w: World, s: GameState)
    requires Inv(w, s) && !s.won && !s.lost
    ensures Inv(w, MoveBall(w, s))
  {
    var r := MoveBall(w, s);
    SameLayoutAboveFallLine(w, s.bricks, r.bricks);
    if AnyActive(s.bricks) {
      MoveBallNotWonAndLost(w, s);
    }
    if r.fallCount == s.fallCount + 1 {
      LastLife(r.fallCount);
    } else {
      assert !r.lost;
    }
  }

  /** Within the lives counter's range, a multiple of Lives is Lives itself. */
  lemma LastLife(n: int)
    ensures 1 <= n <= Lives ==> (n % Lives == 0 <==> n == Lives)
  {
  }

  /** A new game from any state with the bricks above the fall line
      satisfies the invariant. */
  lemma ResetKeepsInv(w: World, s: GameState)
    requires BricksAboveFallLine(w, s.bricks)
    requires w.cfg.twoPi > 0.0
    ensures Inv(w, ResetGame(w, s))
  {
    SameLayoutAboveFallLine(w, s.bricks, ResetGame(w, s).bricks);
  }

  /** The frame that starts a new game ends in an invariant state. */
  lemma NewGameKeepsInv(w: World, s: GameState)
    requires Sane(w) && BricksAboveFallLine(w, s.bricks)
    ensures Inv(w, NewGameFrame(w, s))
  {
    ResetKeepsInv(w, s);
    PlayKeepsInv(w, ResetGame(w, s));
  }

  /** Every frame keeps the invariant. */
  lemma TickKeepsInv(w: World, s: GameState)
    requires Sane(w) && Inv(w, s)
    ensures Inv(w, Tick(w, s).next)
  {
    var s0 := Clock(w, s);
    assert Inv(w, s0);
    if s0.lost && s0.lossFrames + 1 >= LossDuration {
      NewGameKeepsInv(w, s0.(lossFrames := s0.lossFrames + 1));
    } else if !s0.lost && s0.won && s0.winFrames + 1 >= WinDuration {
      NewGameKeepsInv(w, s0.(winFrames := s0.winFrames + 1));
    } else if !s0.lost && !s0.won {
      PlayKeepsInv(w, s0);
    }
  }

  /** Every state reached from an invariant state keeps the invariant; in
      particular no reachable round is both won and lost. */
  lemma RunKeepsInv(w: World, s: GameState, n: nat)
    requires Sane(w) && Inv(w, s)
    ensures Inv(w, Run(w, s, n))
    ensures !(Run(w, s, n).won && Run(w, s, n).lost)
  {
    var t, i := s, 0;
    while i < n
      invariant i <= n && t == Run(w, s, i) && Inv(w, t)
    {
      TickKeepsInv(w, t);
      t, i := Tick(w, t).next, i + 1;
    }
  }

  /** Every state reachable from a freshly built game satisfies the invariant. */
  lemma ReachableInv(cfg: Config, points: seq<Point>, rows: seq<real>, n: nat)
    requires Init(cfg, points, rows).Ok?
    requires cfg.twoPi > 0.0 && Abs(cfg.rotationSpeed) <= cfg.twoPi
    ensures var (w, s) := Init(cfg, points, rows).value; Inv(w, Run(w, s, n))
  {
    var (w, s) := Init(cfg, points, rows).value;
    InitInv(cfg, points, rows);
    RunKeepsInv(w, s, n);
  }

  /** The loss animation: for the n-th frame after a loss with n below 120,
      the round is still lost, the loss counter has advanced by n and the
      board is untouched. */
  lemma LossPhase(w: World, s: GameState, n: nat)
    requires s.lost && s.lossFrames + n < LossDuration
    ensures Run(w, s, n).lost
    ensures Run(w, s, n).lossFrames == s.lossFrames + n
    ensures Run(w, s, n).bricks == s.bricks && Run(w, s, n).ball == s.ball
    ensures Run(w, s, n).gameCount == s.gameCount && Run(w, s, n).fallCount == s.fallCount
  {
    var t, i := s, 0;
    while i < n
      invariant i <= n && t == Run(w, s, i) && t.lost && t.lossFrames == s.lossFrames + i
      invariant t.bricks == s.bricks && t.ball == s.ball
      invariant t.gameCount == s.gameCount && t.fallCount == s.fallCount
    {
      t, i := Tick(w, t).next, i + 1;
    }
  }

  /** A round lost this frame starts a new game on exactly the 120th frame. */
  lemma LossLasts(w: World, s: GameState)
    requires s.lost && s.lossFrames == 0
    ensures Run(w, s, LossDuration - 1).lost
    ensures Run(w, s, LossDuration).gameCount == s.gameCount + 1
    ensures !Run(w, s, LossDuration).lost
    ensures Run(w, s, LossDuration).rotationAngle == FaceAngle(w, Run(w, s, LossDuration).gameCount % FacesPerCycle)
  {
    LossPhase(w, s, LossDuration - 1);
    var t := Run(w, s, LossDuration - 1);
    assert Run(w, s, LossDuration) == Tick(w, t).next;
  }

  /** The win animation: the n-th frame after a win with n below 90 (and no
      loss) leaves the round won with the counter advanced by n. */
  lemma WinPhase(w: World, s: GameState, n: nat)
    requires s.won && !s.lost && s.winFrames + n < WinDuration
    ensures Run(w, s, n).won && !Run(w, s, n).lost
    ensures Run(w, s, n).winFrames == s.winFrames + n
    ensures Run(w, s, n).bricks == s.bricks && Run(w, s, n).ball == s.ball
    ensures Run(w, s, n).gameCount == s.gameCount
  {
    var t, i := s, 0;
    while i < n
      invariant i <= n && t == Run(w, s, i) && t.won && !t.lost && t.winFrames == s.winFrames + i
      invariant t.bricks == s.bricks && t.ball == s.ball && t.gameCount == s.gameCount
    {
      t, i := Tick(w, t).next, i + 1;
    }
  }

  /** A round won this frame starts a new game on exactly the 90th frame. */
  lemma WinLasts(w: World, s: GameState)
    requires s.won && !s.lost && s.winFrames == 0
    ensures Run(w, s, WinDuration - 1).won
    ensures Run(w, s, WinDuration).gameCount == s.gameCount + 1
    ensures !Run(w, s, WinDuration).lost
    ensures Run(w, s, WinDuration).rotationAngle == FaceAngle(w, Run(w, s, WinDuration).gameCount % FacesPerCycle)
  {
    WinPhase(w, s, WinDuration - 1);
    var t := Run(w, s, WinDuration - 1);
    assert Run(w, s, WinDuration) == Tick(w, t).next;
  }
}
